=== FILE: README.md ===
# Recommendation analysers for technical reports — a Dafny model

The repository holds five small Streamlit apps that look for recommendations
in PDF technical reports:

- `app.py` scans a spreadsheet of projects. For each row it finds the report
  `pdfs/<company>/FINAL/<file>.pdf` by fuzzy name match, reads the text, and
  keeps the sentences that mention one of seven Portuguese markers. It writes
  one result row (company, file, status, numbered list).
- `appv1.py` does the same with a 42-entry list of markers in four languages,
  but only for the rows of one company chosen from a sorted list. It then
  exports the sheet from its header row down, with stripped headings and an
  extra `Recomendações` column.
- `app_ia.py` and `app_llama.py` hand the last 3000 characters of each report
  to a language model (a hosted chat model or a local one) instead of using
  markers, and store its answer.
- `appv2.py` lists the PDF blobs of a storage container, reads the one picked,
  and shows the multilingual-marker sentences as a bullet list.

The model keeps the pure pipeline underneath the user interface. The
following are parameters:

- the file system (a folder listing, or nothing);
- the similarity score and `get_close_matches`;
- the PDF reader (page texts, or an error message);
- the language-model service (reply, or error message);
- the blob listing and downloads;
- every user choice.

Modules, one file each:

| module | models |
|---|---|
| `Wrappers`, `Widgets` | `Option`/`Result`; what a select box can return |
| `Text` | `str.isspace`, `lower`, `in`, `strip`, `endswith`, `join`, `str(n)`, and a line splitter that reads joined text back |
| `Seqs` | list comprehensions with a filter |
| `Segmenter` | `re.split(r'[\.!?]\s+', texto)` |
| `Keywords` | `extrair_recomendacoes` and the two marker lists |
| `PdfText` | `ler_pdf` |
| `ModelPrompt` | `extrair_recomendacoes_ia` / `extrair_recomendacoes_llama` |
| `Sheet` | cells, the header scan, column lookup, the company list and filter, writing a column back |
| `Resolver` | the company folder, the wanted name, the folder test and the fuzzy match |
| `Pipeline` | one row of the loop, the status texts, the numbered list, one record per row |
| `Analysers` | the whole runs of `app.py`, `app_ia.py`, `app_llama.py` |
| `AppV1`, `AppV2` | the runs of `appv1.py` and `appv2.py` |

Three behaviours of the code worth knowing:

- A company folder that exists but is empty gives "Arquivo não encontrado
  (nome parecido não encontrado)". It does not give "Pasta FINAL não
  encontrada".
- When several folder entries clear the 0.7 cutoff, `get_close_matches`
  picks the best-scoring one (ties go to the greater name). The model keeps
  only the cutoff promise: the entry picked is listed and clears the cutoff.
- In `app_ia.py` and `app_llama.py`, a row whose report was found is
  "Encontrado" even when the model call failed.

## Model

| member | source | states |
|---|---|---|
| Text.LowerStr | app.py:21 | `frase.lower()` keeps the length and lower-cases each character |
| Text.ContainsIff | app.py:21 | `kw in s` holds exactly when `kw` occurs at some position of `s` |
| Text.LowerKeepsOccurrence | app.py:21 | lower-casing text and marker keeps an occurrence |
| Text.MissingCharExcludes | app.py:21 | a text lacking one character of a marker does not contain it |
| Text.Strip | app.py:21 | `strip()` result has no white space at either end, is no longer than its input, and is empty exactly when the input is all white space |
| Text.StripFramed | app.py:21 | the stripped text sits inside the input with only white space around it |
| Text.StripUnique | app.py:62-63 | any split of a text into white space, a trimmed middle and white space has `strip()` equal to that middle |
| Text.StripIdempotent | app.py:62-63 | stripping twice is stripping once |
| Text.Join | app.py:28 | `"\n".join(pages)` places every page at its offset, in order, with one separator between neighbours |
| Text.SplitOnJoin | app.py:28 | splitting a join at the separator gives the parts back when no part holds the separator |
| Text.UnwrapWrapped | app.py:32 | a text framed by a prefix and a suffix is recovered by removing them |
| Text.NatToString | app.py:83 | `str(i+1)` is canonical decimal digits that read back as the number |
| Seqs.Filter | appv2.py:19 | the kept names are a subsequence of the listing, a name is kept exactly when listed and accepted, and each keeps its multiplicity |
| Segmenter.FirstBoundary | app.py:20 | the leftmost place where a terminator is followed by white space |
| Segmenter.Segment | app.py:20 | pieces and consumed separators rebuild the text; each separator is a terminator plus white space; no piece holds a terminator followed by white space; no later piece starts with white space |
| Segmenter.SegmentUnique | app.py:20 | every decomposition meeting those conditions is the one computed, so the split is determined by them |
| Segmenter.Split | app.py:20 | there is always at least one piece, and the only piece is the whole text, unchanged, exactly when the text holds no terminator followed by white space |
| Keywords.Retain | app.py:21 | the comprehension keeps as many items as pieces pass, each the stripped form of a passing piece, and nothing exactly when no piece passes |
| Keywords.RetainInOrder | app.py:21 | a passing piece lands at the index given by the number of passing pieces before it |
| Keywords.ExtractRecommendations | appv1.py:39-42 | soundness: each result is a stripped piece mentioning a marker; exactly as many results as pieces that mention a marker; empty exactly when no piece mentions one |
| Keywords.MarkerLists | appv1.py:13-36 | appv1.py lists forty-two markers, and the seven of app.py:13-16 are its first seven, in the same order |
| Keywords.MentionsMarker | app.py:21 | defines the test `any(kw in frase.lower() for kw in KEYWORDS)`: some marker, as written, is contained in the lower-cased piece |
| Keywords.MentionsMarkerIff | app.py:21 | a piece passes the test exactly when some marker occurs at some position of the lower-cased piece |
| Keywords.ExtractComplete | appv1.py:41 | completeness and order: every piece mentioning a marker is returned, stripped, in piece order |
| Keywords.RetainMonotone | appv1.py:41 | a test implied by another keeps a subsequence of what the other keeps |
| Keywords.PortugueseFindingsAreMultilingualFindings | app.py:13-16 | what the seven Portuguese markers find, the 42-entry list finds too, in the same order |
| Keywords.UpperCaseSpellingIsFound | app.py:21 | a piece containing an upper-case spelling of a marker mentions the marker |
| Keywords.ShoutedRecomendaIsKept | app.py:21 | a piece containing "RECOMENDA" is among the results with the seven markers |
| Keywords.SugerimosExample | app.py:13-22 | "Sugerimos revisar o processo. O clima estava bom." yields just "Sugerimos revisar o processo" |
| Keywords.TwoSentences | app.py:20 | a terminator-free sentence, a separator and a closing sentence split into exactly the two sentences |
| PdfText.ReadPdf | app.py:25-32 | a read gives the pages joined by line breaks in page order; a failure gives the reader's message between "[Erro ao ler o PDF: " and "]" |
| PdfText.PagesRecoverable | app.py:28 | the pages come back from the text when no page holds a line break |
| PdfText.FailureCarriesMessage | app.py:31-32 | the failure text is the fixed prefix, the message and "]" |
| PdfText.FailureLooksLikeText | app.py:25-32 | a page whose text reads like the failure text cannot be told apart from a failure |
| ModelPrompt.TrailingWindow | app_ia.py:37 | `texto[-3000:]` is the suffix of length min(length, 3000) |
| ModelPrompt.WindowIgnoresPrefix | app_ia.py:37 | text in front of the last 3000 characters does not affect the window |
| ModelPrompt.WindowIdempotent | app_llama.py:33 | the window of a window is itself |
| ModelPrompt.Prompt | app_ia.py:39-44 | the prompt is the fixed head, the window and the fixed tail, and the window is recovered from it |
| ModelPrompt.RequestFor | app_ia.py:47-54 | the chat request carries "gpt-3.5-turbo", the system message, temperature 0.2 and the prompt; the local request is the prompt alone |
| ModelPrompt.Answer | app_ia.py:55-57 | a reply becomes the trimmed text that sits in it with only white space around it, which fixes it as `strip()` by `Text.StripUnique`; a failure becomes "[Erro ao usar OpenAI: " + message + "]" (or the LLaMA text) |
| ModelPrompt.ModelRecommendations | app_llama.py:32-45 | the strategy's result is the stripped reply to its request, or the engine's failure text; nothing escapes |
| ModelPrompt.ModelSeesOnlyWindow | app_ia.py:37-54 | two texts with the same last 3000 characters produce the same request, and so the same answer from a service that answers each request one way |
| ModelPrompt.FailureLooksLikeReply | app_ia.py:55-57 | a reply spelled like the failure text gives the same result as a failure |
| ModelPrompt.FailureIsNotEmpty | app_llama.py:44-45 | a failure is never an empty result |
| ModelPrompt.ChatPromptQuotesWindow | app_ia.py:43 | the chat prompt ends with `Texto:`, the window between triple quotes |
| ModelPrompt.LlamaPromptOpens | app_llama.py:35 | the local prompt starts with "### Instrução:" |
| ModelPrompt.LlamaPromptCloses | app_llama.py:39 | the local prompt ends with the window and "### Resposta:" |
| Sheet.HeaderIndex | app.py:44-45 | the scan returns the first row below 10 that has a cell containing "Empresa", or none when none of the first 10 has one |
| Sheet.CellText | app.py:45 | defines `astype(str)` on one cell: a value gives its own text, an empty cell gives "nan" |
| Sheet.IsHeaderRow | app.py:45 | defines the scan's test: the text of some cell of the row, as `astype(str)` renders it, contains "Empresa" |
| Sheet.HeaderIndexIs | appv1.py:66-67 | a header row with none above it is the one found |
| Sheet.Width | appv1.py:63 | the sheet is as wide as its widest row: no row is wider, and some row has that width |
| Sheet.HeaderNames | app.py:46 | one label per column of the sheet, each the stripped text of the header row's cell there, "nan" past the header row's end |
| Sheet.DetectHeader | appv1.py:66-70 | with a header, every column of the sheet is labelled from it and only the rows below remain, each fitting under the labels; without one the sheet is unchanged |
| Sheet.ColumnsPastHeaderReadNan | appv1.py:68 | a column that some row fills beyond the end of the header row is labelled "nan" |
| Sheet.DetectHeaderDropsAbove | app.py:47 | the remaining rows are a suffix of the sheet |
| Sheet.ColumnIndex | appv1.py:77 | `df[heading]` names one column; it fails as missing exactly when no label matches, and as ambiguous when several do |
| Sheet.CellString | app.py:62-63 | the text the loop reads from a cell is trimmed and sits in the cell's text with only white space around it, which fixes it as `strip()` by `Text.StripUnique`; a missing cell reads "nan" |
| Sheet.LessTotal | appv1.py:77 | Python's string order compares any two distinct strings |
| Sheet.LessTransitive | appv1.py:77 | the order is transitive |
| Sheet.LessIrreflexive | appv1.py:77 | no string is below itself |
| Sheet.Insert | appv1.py:77 | inserting into a strictly sorted list keeps it strictly sorted and adds exactly the new value |
| Sheet.SortedUnique | appv1.py:77 | a strictly sorted list is determined by its members |
| Sheet.DistinctValues | appv1.py:77 | the company list is strictly ascending and holds exactly the non-empty values of the column |
| Sheet.MatchingRows | appv1.py:81 | the filter keeps, in row order, exactly the rows whose cell reads as the selection; no selection keeps none |
| Sheet.ChosenCompanyHasRows | appv1.py:77-81 | a company taken from the list matches at least one row |
| Sheet.BlankMatchesNan | appv1.py:81 | a selection reading "nan" picks the rows whose company cell is empty |
| Sheet.Scatter | appv1.py:126-129 | the new column holds each analysed row's text at that row's position and "" elsewhere |
| Sheet.SetColumn | appv1.py:126 | assigning a column replaces the one carrying the heading or adds it on the right; no other cell changes |
| Resolver.PathJoin | app.py:65 | POSIX `os.path.join`: an absolute part replaces the prefix; otherwise the result is the first part, then one "/" unless the first part is empty or already ends with "/", then the second part |
| Resolver.CompanyFolderShape | app.py:65 | an ordinary company name gives `pdfs/<company>/FINAL` |
| Resolver.CompanyFolder | app.py:65 | the folder always ends in "/FINAL", and it starts with "pdfs/" unless the company cell starts with "/" |
| Resolver.AbsoluteCompanyEscapesRoot | app.py:65 | a company cell starting with "/" names a folder outside `pdfs` |
| Resolver.WantedName | app.py:66 | the wanted name is the file cell followed by ".pdf" |
| Resolver.Resolve | app.py:68-72 | no folder means folder missing; otherwise the chosen entry is listed, clears the cutoff and is joined to the folder; there is no match only when no entry clears it, and a match whenever one does |
| Resolver.EmptyFolderHasNoMatch | app.py:68-78 | an empty existing folder is "no close match", not "folder missing" |
| Pipeline.StatusTextInjective | app.py:75-81 | the four status texts are distinct |
| Pipeline.StatusText | app.py:75-81 | defines the four status texts as the source writes them; `StatusTextInjective` shows that no two outcomes share one |
| Pipeline.NumberedLines | app.py:83 | entry k is `str(k+1)`, ". " and the k-th recommendation |
| Pipeline.FormatNumbered | app.py:83 | the list is "-" exactly when there are no recommendations; otherwise, counting from 1, line k is `str(k) + ". "` and the k-th recommendation, each at its place, with one line break between neighbouring lines |
| Pipeline.FormatParseRoundTrip | app.py:83 | the numbered list reads back as the recommendations when none holds a line break |
| Pipeline.NumberedListAmbiguous | appv1.py:110 | with a line break inside a recommendation, one entry can format exactly like two |
| Pipeline.Analyse | app.py:73-75 | with markers, "Encontrado" exactly when something was found, else "Sem recomendações", plus the numbered list; with an engine, "Encontrado" and the engine's result |
| Pipeline.ProcessRow | app.py:62-83 | the record keeps the stripped cells; "folder missing" exactly when the folder is absent; "file not found" exactly when the folder exists and no entry clears the cutoff; both carry "-"; otherwise the status and list come from analysing the matched report's text |
| Pipeline.ModelStatusIgnoresAnswer | app_ia.py:97-101 | with an engine, a row whose report was found is "Encontrado", whatever the answer |
| Pipeline.KeywordStatusMatchesList | appv1.py:102-110 | with markers, "Encontrado" exactly when the list is not "-" |
| Pipeline.ReadFailureCanLookFound | app.py:73-75 | a failed read whose message mentions a marker is reported as found |
| Pipeline.Records | app.py:61-90 | one record per row, in row order, each the result of that row alone |
| Pipeline.RecordsAppend | app.py:61-90 | rows are handled independently: the records of two blocks of rows are the records of each block, in order |
| Pipeline.RecordsAppendLeft | app.py:61-90 | a record of the first block keeps its index in the records of both blocks |
| Pipeline.RecordsAppendRight | app.py:61-90 | a record of the second block moves back by the first block's length |
| Pipeline.ModelRowsAgree | app_ia.py:46-58 | when the service answers both engines' requests for a text with the same successful reply, a row gets the same record under either engine |
| Pipeline.ModelRecordsAgree | app_llama.py:47-52 | under the same condition, every row of a table gets the same record under either engine |
| Pipeline.RecommendationTexts | appv1.py:128 | the result table's recommendation column, record by record |
| Analysers.StrategyOf | app.py:74 | `app.py` uses the seven markers; `app_ia.py` the chat engine; `app_llama.py` the local engine |
| Analysers.Analyse | app_ia.py:87-114 | one record per row below the header, each the full analysis of that row (status and list under the app's markers or engine) from its stripped company and file cells |
| Analysers.HeaderFoundAt | app_llama.py:57-61 | a header row with none above it, within the first ten rows, is the one the scan picks |
| Analysers.RowsAboveHeaderIgnored | app.py:44-48 | rows above the header and the header itself never affect the result |
| Analysers.KeywordAppFoundIffListed | app.py:75-83 | in `app.py` a row is "Encontrado" exactly when its list is not "-" |
| Analysers.ModelAppsFoundWhenResolved | app_llama.py:84-88 | in the model apps every row whose report was found is "Encontrado" |
| Analysers.AnalyseIsRecords | app.py:61-90 | a run is the record list of the rows below the header, under the app's own strategy |
| Analysers.ModelAppsAgreeOnSameReplies | app_llama.py:74-101 | given the same replies, the two model apps produce the same table |
| AppV1.CompanyChoices | appv1.py:77 | the company list is strictly sorted and holds exactly the non-empty company cells; a bad "Empresa" heading stops the run |
| Widgets.Offered | appv1.py:78 | defines what `st.selectbox` can hand back: nothing exactly when the list is empty, otherwise one of the listed values |
| AppV1.Chosen | appv1.py:81 | the filtered rows are the rows at the matching positions, in order |
| AppV1.Analysis | appv1.py:81-117 | the analysed rows are exactly the rows of the selected company; each gets the record of its own row, read from its stripped company and file cells and analysed with the forty-two markers; the file heading is needed only when some row matched |
| AppV1.RunAnalysesEachRow | appv1.py:88-117 | the k-th record of a run is the record of the k-th row of the selected company, with the forty-two markers |
| AppV1.Export | appv1.py:124-129 | the export has every row; the result column replaces a column already headed "Recomendações" or is added after all labels; it holds each analysed row's text and "" elsewhere; no other cell changes |
| AppV1.ExportAsWritten | appv1.py:120-129 | as written, the export fails exactly when there are no records |
| AppV1.Run | appv1.py:73-129 | a run fails only on a heading lookup, and on a missing "Empresa" heading exactly when the sheet lacks it; the export keeps every row |
| AppV1.RunAsWritten | appv1.py:73-129 | as written, a run that succeeds has at least one record and agrees with the corrected run |
| AppV1.RecordsAreOfSelectedCompany | appv1.py:81-89 | every record carries the selected company, stripped |
| AppV1.SelectedCompanyIsAnalysed | appv1.py:77-88 | picking a company from the list always analyses at least one row |
| AppV1.ExportPairsRowsWithRecords | appv1.py:124-129 | the k-th record's text goes to the k-th analysed row; other rows get ""; nothing else changes |
| AppV1.ExportKeepsSheet | appv1.py:124-126 | without a "Recomendações" heading in the sheet, the new column follows every label, overwrites no data cell of a table whose rows fit under its labels, and every labelled cell is exported unchanged |
| AppV1.AppendedColumnKeepsCells | appv1.py:126 | the same for the export function itself |
| AppV1.ExportKeepsDetectedSheet | appv1.py:63-70 | for a sheet as the header scan reads it, every data cell of every row is exported in place, however wide the row |
| AppV1.AsWrittenFailsOnlyWithoutRecords | appv1.py:120-129 | the as-written and corrected runs agree when there are records; otherwise the as-written one fails |
| AppV1.NoSelectionMatchesNothing | appv1.py:81 | comparing with no selection keeps no row |
| AppV1.NoCompanyBreaksExport | appv1.py:77-128 | a sheet with no company value makes the as-written run fail and the corrected run succeed |
| AppV1.EmptyCompanyCellSheet | appv1.py:66-70 | a header row and a data row with an empty company cell is such a sheet |
| AppV1.EmptyCompanyCellBreaksExport | appv1.py:120-128 | on that sheet the as-written run fails and the corrected run succeeds |
| AppV2.BlobChoices | appv2.py:15-25 | the offered names are the PDF names of the listing, in order, with their multiplicity; a failed listing or no connection string offers none |
| AppV2.IsPdfNameIff | appv2.py:19 | a name is kept exactly when its last four characters lower-case to ".pdf" |
| AppV2.IsPdfName | appv2.py:19 | defines the blob filter: the lower-cased name ends with ".pdf" |
| AppV2.UpperCaseExtensionAccepted | appv2.py:19 | a ".PDF" name is kept |
| AppV2.ReportText | appv2.py:31-36 | with no selection the text is empty; otherwise it is the text `ler_pdf` would give for the blob's pages, so `PdfText.ReadPdf` fixes the layout of each page and line break |
| AppV2.Show | appv2.py:61-68 | nothing is shown for an empty text; the notice appears exactly when a non-empty text has no recommendation; otherwise one "- r" line per recommendation, in order |
| AppV2.BulletsGiveBackRecommendations | appv2.py:65-66 | each bullet line gives its recommendation back |
| AppV2.Visit | appv2.py:28-68 | without a choice nothing is shown; with one, the page shows what the chosen blob's pages, read as `ler_pdf` reads them, yield under the forty-two markers; anything shown comes from a listed PDF blob |
| AppV2.SameFindingsAsV1 | appv2.py:39-59 | on the same text, bullets appear exactly when `appv1.py` reports "Encontrado", and the notice exactly when it writes "-" |

## Left out

- The user interface, file upload, sheet choice, Excel reading and writing, and the download buttons. A sheet is its rows of cells; results are records.
- The API-key gate of `app_ia.py`, the model loading of `app_llama.py`, and the local call's `max_tokens` and `stop` arguments. The engines are one `Service` parameter.
- The similarity score and `get_close_matches`: they are parameters. Which entry wins among several above the cutoff is not modelled.
- PyMuPDF page extraction. The reader is a parameter giving page texts or an error message.
- How pandas renders numbers and dates as text. A cell is empty (read as "nan") or already text.
- Text.Lower: exact for ASCII and Latin-1 letters only. Other characters are left unchanged, so the length-changing Unicode cases of `lower()` are not modelled.
- Resolver.PathJoin: POSIX paths only. Windows separators and drive letters are not modelled.
- Resolver.Resolve: a `FINAL` path that exists but is a file makes `os.listdir` raise. The file-system parameter cannot express this.
- Sheet.HeaderIndex: in the source, a sheet with fewer than ten rows and no header row raises IndexError. The model excludes it by the precondition `ScanStaysInside`.
- Analysers.Analyse: the user's column choices are taken by position. With duplicate header labels, pandas would hand back several cells for one label; that is not modelled.
- AppV1.Analysis: with several "Nome do arquivo salvo" headings, pandas reads a multi-cell value as text. The model reports an ambiguous heading instead.
- Sheet.SetColumn: with several columns already headed "Recomendações", the model writes only the first.
- AppV2.ReportText: the source does not catch failing downloads or unreadable blobs, so the script stops. The model takes the pages of the chosen blob as given.
- The error and warning messages `appv2.py` shows (`st.error`, `st.warning`) are not modelled. Only their effect, an empty list, is.

## Findings

| source | as written | input that shows it | evidently intended | confidence | as-written member | corrected member |
|---|---|---|---|---|---|---|
| appv1.py:120-129 | The export reads `df_resultado['Recomendações']` even when no row was analysed. `pd.DataFrame([])` has no columns, so the lookup raises KeyError and no export is offered. | A sheet with the header row `Empresa`, `Nome do arquivo salvo` and one data row whose company cell is empty. The company list is empty, nothing is selected, and no row is analysed. | Export the sheet with an empty "Recomendações" column. | medium, not executed | AppV1.RunAsWritten (shown by AppV1.EmptyCompanyCellBreaksExport) | AppV1.Run (with AppV1.ExportPairsRowsWithRecords) |

=== FILE: analysers.dfy ===
/** The three whole-sheet analysers: app.py (Portuguese keyword markers),
    app_ia.py (the hosted chat engine) and app_llama.py (the local engine).
    Each scans for the header row, lets the user pick the company column and
    the file column, and writes one record per data row. The picked columns
    are given by position. */
module Analysers {
  import opened Wrappers
  import opened Text
  import opened Keywords
  import opened PdfText
  import opened ModelPrompt
  import opened Resolver
  import opened Sheet
  import opened Pipeline

  datatype Analyser = KeywordApp | ChatApp | LlamaApp

  /** How each analyser extracts recommendations. */
  function StrategyOf(app: Analyser): (s: Strategy)
    ensures s.KeywordMarkers? <==> app.KeywordApp?
    ensures s.KeywordMarkers? ==> s.markers == Portuguese
    ensures s.ModelEngine? ==> (s.engine.HostedChat? <==> app.ChatApp?)
  {
    match app
    case KeywordApp => KeywordMarkers(Portuguese)
    case ChatApp => ModelEngine(HostedChat)
    case LlamaApp => ModelEngine(LocalLlama)
  }

  /** The result table of one run over a sheet read without a header. */
  function Analyse(app: Analyser, world: World, sheet: seq<Row>, companyCol: nat, fileCol: nat)
    : (rs: seq<Record>)
    requires ScanStaysInside(sheet)
    requires KeepsCutoff(world.score, world.matcher)
    ensures var t := DetectHeader(sheet);
      && |rs| == |t.rows|
      && (forall i :: 0 <= i < |t.rows| ==>
           rs[i].company == CellString(t.rows[i], companyCol) && rs[i].file == CellString(t.rows[i], fileCol))
      && (forall i :: 0 <= i < |t.rows| ==>
           rs[i] == ProcessRow(StrategyOf(app), world, CellString(t.rows[i], companyCol), CellString(t.rows[i], fileCol)))
  {
    Records(StrategyOf(app), world, DetectHeader(sheet).rows, companyCol, fileCol)
  }

  /** Rows above the header row, and the header row itself, never produce a
      record: replacing them by anything that keeps the header where it is
      leaves the result unchanged. */
  lemma RowsAboveHeaderIgnored(app: Analyser, world: World, a: seq<Row>, b: seq<Row>, rest: seq<Row>,
                               companyCol: nat, fileCol: nat)
    requires 0 < |a| == |b| <= ScanDepth
    requires IsHeaderRow(a[|a| - 1]) && IsHeaderRow(b[|b| - 1])
    requires forall k :: 0 <= k < |a| - 1 ==> !IsHeaderRow(a[k]) && !IsHeaderRow(b[k])
    requires KeepsCutoff(world.score, world.matcher)
    ensures ScanStaysInside(a + rest) && ScanStaysInside(b + rest)
    ensures Analyse(app, world, a + rest, companyCol, fileCol) == Analyse(app, world, b + rest, companyCol, fileCol)
  {
    var i := |a| - 1;
    HeaderFoundAt(a, rest);
    HeaderFoundAt(b, rest);
    assert (a + rest)[i + 1..] == rest == (b + rest)[i + 1..];
  }

  /** A header row at the last position of `a`, with none before it, is the
      one the scan picks in `a + rest`. */
  lemma HeaderFoundAt(a: seq<Row>, rest: seq<Row>)
    requires 0 < |a| <= ScanDepth
    requires IsHeaderRow(a[|a| - 1])
    requires forall k :: 0 <= k < |a| - 1 ==> !IsHeaderRow(a[k])
    ensures ScanStaysInside(a + rest)
    ensures HeaderIndex(a + rest) == Some(|a| - 1)
  {
    var s := a + rest;
    assert forall k :: 0 <= k < |a| ==> s[k] == a[k];
    HeaderIndexIs(s, |a| - 1);
  }

  /** In app.py a row is reported as found exactly when its numbered list is
      not the placeholder. */
  lemma KeywordAppFoundIffListed(world: World, sheet: seq<Row>, companyCol: nat, fileCol: nat, i: nat)
    requires ScanStaysInside(sheet)
    requires KeepsCutoff(world.score, world.matcher)
    requires i < |DetectHeader(sheet).rows|
    ensures var r := Analyse(KeywordApp, world, sheet, companyCol, fileCol)[i];
      r.status == Found <==> r.recommendations != NothingListed
  {
    var row := DetectHeader(sheet).rows[i];
    KeywordStatusMatchesList(Portuguese, world, CellString(row, companyCol), CellString(row, fileCol));
  }

  /** In app_ia.py and app_llama.py every row whose report was found is
      reported as found, whatever the engine answered. */
  lemma ModelAppsFoundWhenResolved(app: Analyser, world: World, sheet: seq<Row>, companyCol: nat, fileCol: nat, i: nat)
    requires !app.KeywordApp?
    requires ScanStaysInside(sheet)
    requires KeepsCutoff(world.score, world.matcher)
    requires i < |DetectHeader(sheet).rows|
    requires var row := DetectHeader(sheet).rows[i];
      Resolve(world.fs, world.score, world.matcher, CellString(row, companyCol), CellString(row, fileCol)).Resolved?
    ensures Analyse(app, world, sheet, companyCol, fileCol)[i].status == Found
  {
    var row := DetectHeader(sheet).rows[i];
    ModelStatusIgnoresAnswer(StrategyOf(app).engine, world, CellString(row, companyCol), CellString(row, fileCol));
  }

  /** The two model apps differ only in the engine: when both engines give
      the same reply to their own requests, the result tables coincide. */
  lemma ModelAppsAgreeOnSameReplies(world: World, sheet: seq<Row>, companyCol: nat, fileCol: nat)
    requires ScanStaysInside(sheet)
    requires KeepsCutoff(world.score, world.matcher)
    requires SameReplies(world.service)
    ensures Analyse(ChatApp, world, sheet, companyCol, fileCol) == Analyse(LlamaApp, world, sheet, companyCol, fileCol)
  {
    var rows := DetectHeader(sheet).rows;
    ModelRecordsAgree(world, rows, companyCol, fileCol);
    AnalyseIsRecords(ChatApp, ModelEngine(HostedChat), world, sheet, companyCol, fileCol);
    AnalyseIsRecords(LlamaApp, ModelEngine(LocalLlama), world, sheet, companyCol, fileCol);
  }

  lemma AnalyseIsRecords(app: Analyser, strategy: Strategy, world: World, sheet: seq<Row>, companyCol: nat, fileCol: nat)
    requires strategy == StrategyOf(app)
    requires ScanStaysInside(sheet)
    requires KeepsCutoff(world.score, world.matcher)
    ensures Analyse(app, world, sheet, companyCol, fileCol)
            == Records(strategy, world, DetectHeader(sheet).rows, companyCol, fileCol)
  {
  }
}

=== FILE: app_v1.dfy ===
/** appv1.py: the analyser for one company. The company and file columns are
    fixed by heading; the user picks one company from the sorted list of the
    companies in the sheet; only that company's rows are analysed, with the
    multilingual markers; and the sheet is exported again with an extra
    column holding each analysed row's numbered list. */
module AppV1 {
  import opened Wrappers
  import opened Text
  import opened Keywords
  import opened Resolver
  import opened Sheet
  import opened Pipeline
  import opened Widgets

  const CompanyHeading: string := "Empresa"
  const FileHeading: string := "Nome do arquivo salvo"
  const ResultHeading: string := "Recomendações"

  /** Why a run stops: a fixed heading cannot be read as one column, or the
      result table has no "Recomendações" column to copy from. */
  datatype Failure = Lookup(error: LookupError) | NoResultColumn

  /** What a run shows and offers for download. */
  datatype Outcome = Outcome(records: seq<Record>, exported: Table)

  /** `sorted(df["Empresa"].dropna().astype(str).unique())`. */
  function CompanyChoices(t: Table): (r: Result<seq<string>, LookupError>)
    ensures r.Err? <==> ColumnIndex(t.columns, CompanyHeading).Err?
    ensures r.Err? ==> r.error == ColumnIndex(t.columns, CompanyHeading).error
    ensures r.Ok? ==> StrictlySorted(r.value)
    ensures r.Ok? ==> forall x :: x in r.value <==>
              exists i :: 0 <= i < |t.rows| && CellAt(t.rows[i], ColumnIndex(t.columns, CompanyHeading).value) == Value(x)
  {
    match ColumnIndex(t.columns, CompanyHeading)
    case Err(e) => Err(e)
    case Ok(cc) => Ok(DistinctValues(t.rows, cc))
  }

  /** The rows at positions `ix`, in that order (`df_filtrado`). */
  function Chosen(rows: seq<Row>, ix: seq<nat>): (picked: seq<Row>)
    requires forall k :: 0 <= k < |ix| ==> ix[k] < |rows|
    ensures |picked| == |ix|
    ensures forall k :: 0 <= k < |ix| ==> picked[k] == rows[ix[k]]
  {
    seq(|ix|, k requires 0 <= k < |ix| => rows[ix[k]])
  }

  /** The filter and the loop: the positions of the selected company's rows
      and, for each, the record of that row under the 42 multilingual markers,
      read from its company and file cells. The file column is read only once
      a row is analysed, so a missing one stops the run only when some row
      matched. */
  function Analysis(world: World, t: Table, cc: nat, selected: Option<string>)
    : (r: Result<(seq<nat>, seq<Record>), LookupError>)
    requires KeepsCutoff(world.score, world.matcher)
    ensures r.Ok? ==> r.value.0 == MatchingRows(t.rows, cc, selected) && |r.value.1| == |r.value.0|
    ensures r.Ok? ==> forall k :: 0 <= k < |r.value.0| ==>
              r.value.1[k].company == CellString(t.rows[r.value.0[k]], cc)
    ensures r.Err? <==> |MatchingRows(t.rows, cc, selected)| > 0 && ColumnIndex(t.columns, FileHeading).Err?
    ensures r.Ok? ==> forall k :: 0 <= k < |r.value.0| ==>
              r.value.1[k] == ProcessRow(KeywordMarkers(Multilingual), world,
                                         CellString(t.rows[r.value.0[k]], cc),
                                         CellString(t.rows[r.value.0[k]], ColumnIndex(t.columns, FileHeading).value))
  {
    var ix := MatchingRows(t.rows, cc, selected);
    if |ix| == 0 then Ok((ix, []))
    else
      match ColumnIndex(t.columns, FileHeading)
      case Err(e) => Err(e)
      case Ok(fc) => Ok((ix, Records(KeywordMarkers(Multilingual), world, Chosen(t.rows, ix), cc, fc)))
  }

  /** The export with the result column: each analysed row gets its record's
      text, every other row an empty text, and no other cell changes. */
  function Export(names: seq<string>, rows: seq<Row>, ix: seq<nat>, texts: seq<string>): (out: Table)
    requires |ix| == |texts|
    requires forall a, b :: 0 <= a < b < |ix| ==> ix[a] < ix[b]
    requires forall k :: 0 <= k < |ix| ==> ix[k] < |rows|
    ensures out.columns.Named? && |out.rows| == |rows|
    ensures out.columns.names == if ResultHeading in names then names else names + [ResultHeading]
    ensures ResultHeading in out.columns.names
    ensures var p := FirstPosition(out.columns.names, ResultHeading);
      && (forall k :: 0 <= k < |ix| ==> CellAt(out.rows[ix[k]], p) == Value(texts[k]))
      && (forall i :: 0 <= i < |rows| && i !in ix ==> CellAt(out.rows[i], p) == Value(""))
      && (forall i, j :: 0 <= i < |rows| && j != p ==> CellAt(out.rows[i], j) == CellAt(rows[i], j))
  {
    var col := Scatter(|rows|, ix, texts);
    var out := SetColumn(names, rows, ResultHeading, col);
    if ResultHeading in names then out
    else
      FirstPositionOfAppended(names, ResultHeading);
      out
  }

  /** A heading added on the right of labels that lack it is found at the
      end. */
  lemma FirstPositionOfAppended(names: seq<string>, heading: string)
    requires heading !in names
    ensures heading in names + [heading]
    ensures FirstPosition(names + [heading], heading) == |names|
  {
    var all := names + [heading];
    assert all[|names|] == heading;
  }

  /** The export as appv1.py writes it: `df_resultado['Recomendações']` is
      read even when no row was analysed, and a result table built from no
      records has no columns at all, so the lookup fails. */
  function ExportAsWritten(names: seq<string>, rows: seq<Row>, ix: seq<nat>, records: seq<Record>)
    : (r: Result<Table, Failure>)
    requires |ix| == |records|
    requires forall a, b :: 0 <= a < b < |ix| ==> ix[a] < ix[b]
    requires forall k :: 0 <= k < |ix| ==> ix[k] < |rows|
    ensures r.Err? <==> |records| == 0
    ensures r.Ok? ==> r.value == Export(names, rows, ix, RecommendationTexts(records))
  {
    if |records| == 0 then Err(NoResultColumn)
    else Ok(Export(names, rows, ix, RecommendationTexts(records)))
  }

  /** The selection is one the select box can produce for table `t`. */
  predicate ValidSelection(t: Table, selected: Option<string>) {
    CompanyChoices(t).Ok? ==> Offered(CompanyChoices(t).value, selected)
  }

  /** One run of appv1.py with the export corrected: when no row is analysed
      the result column is simply empty everywhere. */
  function Run(world: World, t: Table, selected: Option<string>): (r: Result<Outcome, Failure>)
    requires KeepsCutoff(world.score, world.matcher)
    ensures r.Err? ==> r.error.Lookup?
    ensures r == Err(Lookup(MissingColumn(CompanyHeading))) <==>
              ColumnIndex(t.columns, CompanyHeading) == Err(MissingColumn(CompanyHeading))
    ensures r.Ok? ==> |r.value.exported.rows| == |t.rows|
  {
    match ColumnIndex(t.columns, CompanyHeading)
    case Err(e) => Err(Lookup(e))
    case Ok(cc) =>
      match Analysis(world, t, cc, selected)
      case Err(e) => Err(Lookup(e))
      case Ok(found) =>
        Ok(Outcome(found.1, Export(t.columns.names, t.rows, found.0, RecommendationTexts(found.1))))
  }

  /** One run of appv1.py as written. */
  function RunAsWritten(world: World, t: Table, selected: Option<string>): (r: Result<Outcome, Failure>)
    requires KeepsCutoff(world.score, world.matcher)
    ensures r.Ok? ==> |r.value.records| > 0
    ensures r.Ok? ==> r == Run(world, t, selected)
  {
    match ColumnIndex(t.columns, CompanyHeading)
    case Err(e) => Err(Lookup(e))
    case Ok(cc) =>
      match Analysis(world, t, cc, selected)
      case Err(e) => Err(Lookup(e))
      case Ok(found) =>
        match ExportAsWritten(t.columns.names, t.rows, found.0, found.1)
        case Err(f) => Err(f)
        case Ok(table) => Ok(Outcome(found.1, table))
  }

  /** Every record of a run belongs to the chosen company: its company text
      is the selected name without surrounding white space. */
  lemma RecordsAreOfSelectedCompany(world: World, t: Table, selected: Option<string>, k: nat)
    requires KeepsCutoff(world.score, world.matcher)
    requires Run(world, t, selected).Ok?
    requires k < |Run(world, t, selected).value.records|
    ensures selected.Some?
    ensures Run(world, t, selected).value.records[k].company == Strip(selected.value)
  {
    var cc := ColumnIndex(t.columns, CompanyHeading).value;
    var found := Analysis(world, t, cc, selected).value;
    var i := found.0[k];
    assert i in MatchingRows(t.rows, cc, selected);
  }

  /** Each record of a run is the analysis of its own row: the row's company
      and file cells, looked up with the 42 multilingual markers. */
  lemma RunAnalysesEachRow(world: World, t: Table, selected: Option<string>, k: nat)
    requires KeepsCutoff(world.score, world.matcher)
    requires Run(world, t, selected).Ok?
    requires k < |Run(world, t, selected).value.records|
    ensures ColumnIndex(t.columns, CompanyHeading).Ok? && ColumnIndex(t.columns, FileHeading).Ok?
    ensures var cc := ColumnIndex(t.columns, CompanyHeading).value;
      var fc := ColumnIndex(t.columns, FileHeading).value;
      var ix := MatchingRows(t.rows, cc, selected);
      k < |ix| &&
      Run(world, t, selected).value.records[k]
        == ProcessRow(KeywordMarkers(Multilingual), world, CellString(t.rows[ix[k]], cc), CellString(t.rows[ix[k]], fc))
  {
    var cc := ColumnIndex(t.columns, CompanyHeading).value;
    var found := Analysis(world, t, cc, selected).value;
    assert k < |found.0|;
  }

  /** A company picked from the list always gets at least one record. */
  lemma SelectedCompanyIsAnalysed(world: World, t: Table, selected: Option<string>)
    requires KeepsCutoff(world.score, world.matcher)
    requires ValidSelection(t, selected)
    requires Run(world, t, selected).Ok? && selected.Some?
    ensures |Run(world, t, selected).value.records| > 0
  {
    var cc := ColumnIndex(t.columns, CompanyHeading).value;
    ChosenCompanyHasRows(t.rows, cc, selected.value);
  }

  /** The export pairs each analysed row with its own record, leaves the
      other rows' result empty, and changes nothing else. */
  lemma ExportPairsRowsWithRecords(world: World, t: Table, selected: Option<string>)
    requires KeepsCutoff(world.score, world.matcher)
    requires Run(world, t, selected).Ok?
    ensures var cc := ColumnIndex(t.columns, CompanyHeading).value;
      var ix := MatchingRows(t.rows, cc, selected);
      var out := Run(world, t, selected).value;
      var p := FirstPosition(out.exported.columns.names, ResultHeading);
      && |out.records| == |ix|
      && (forall k :: 0 <= k < |ix| ==> CellAt(out.exported.rows[ix[k]], p) == Value(out.records[k].recommendations))
      && (forall i :: 0 <= i < |t.rows| && i !in ix ==> CellAt(out.exported.rows[i], p) == Value(""))
      && (forall i, j :: 0 <= i < |t.rows| && j != p ==> CellAt(out.exported.rows[i], j) == CellAt(t.rows[i], j))
  {
  }

  /** The export keeps the sheet as read: when the sheet has no
      "Recomendações" column of its own, the new column goes after every
      labelled column, so no cell of a table whose rows fit under its labels
      is overwritten; and every one of those cells is exported unchanged. */
  lemma ExportKeepsSheet(world: World, t: Table, selected: Option<string>)
    requires KeepsCutoff(world.score, world.matcher)
    requires t.columns.Named? && LabelsCover(t) && ResultHeading !in t.columns.names
    requires Run(world, t, selected).Ok?
    ensures var out := Run(world, t, selected).value.exported;
      && out.columns.names == t.columns.names + [ResultHeading]
      && FirstPosition(out.columns.names, ResultHeading) == |t.columns.names|
      && (forall i :: 0 <= i < |t.rows| ==> CellAt(t.rows[i], |t.columns.names|) == Blank)
      && (forall i, j :: 0 <= i < |t.rows| && 0 <= j < |t.columns.names| ==> CellAt(out.rows[i], j) == CellAt(t.rows[i], j))
  {
    var texts := RunExports(world, t, selected);
    var cc := ColumnIndex(t.columns, CompanyHeading).value;
    AppendedColumnKeepsCells(t.columns.names, t.rows, MatchingRows(t.rows, cc, selected), texts);
  }

  /** The exported table of a successful run is the export of the matched
      rows with the texts of the records. */
  lemma RunExports(world: World, t: Table, selected: Option<string>) returns (texts: seq<string>)
    requires KeepsCutoff(world.score, world.matcher)
    requires Run(world, t, selected).Ok?
    ensures ColumnIndex(t.columns, CompanyHeading).Ok?
    ensures var ix := MatchingRows(t.rows, ColumnIndex(t.columns, CompanyHeading).value, selected);
      && |ix| == |texts|
      && Run(world, t, selected).value.exported == Export(t.columns.names, t.rows, ix, texts)
  {
    var cc := ColumnIndex(t.columns, CompanyHeading).value;
    var found := Analysis(world, t, cc, selected).value;
    texts := RecommendationTexts(found.1);
  }

  /** An appended column changes no cell under the existing labels and
      overwrites nothing when the rows fit under them. */
  lemma AppendedColumnKeepsCells(names: seq<string>, rows: seq<Row>, ix: seq<nat>, texts: seq<string>)
    requires |ix| == |texts|
    requires forall a, b :: 0 <= a < b < |ix| ==> ix[a] < ix[b]
    requires forall k :: 0 <= k < |ix| ==> ix[k] < |rows|
    requires ResultHeading !in names
    requires forall k :: 0 <= k < |rows| ==> |rows[k]| <= |names|
    ensures var out := Export(names, rows, ix, texts);
      && out.columns.names == names + [ResultHeading]
      && FirstPosition(out.columns.names, ResultHeading) == |names|
      && (forall i :: 0 <= i < |rows| ==> CellAt(rows[i], |names|) == Blank)
      && (forall i, j :: 0 <= i < |rows| && 0 <= j < |names| ==> CellAt(out.rows[i], j) == CellAt(rows[i], j))
  {
    FirstPositionOfAppended(names, ResultHeading);
  }

  /** The same for a sheet as the header scan reads it: every data cell of
      the sheet is exported in place, whatever the width of its rows. */
  lemma ExportKeepsDetectedSheet(world: World, sheet: seq<Row>, selected: Option<string>)
    requires KeepsCutoff(world.score, world.matcher)
    requires ScanStaysInside(sheet)
    requires DetectHeader(sheet).columns.Named? && ResultHeading !in DetectHeader(sheet).columns.names
    requires Run(world, DetectHeader(sheet), selected).Ok?
    ensures var t := DetectHeader(sheet);
      var out := Run(world, t, selected).value.exported;
      forall i, j :: 0 <= i < |t.rows| && 0 <= j < |t.rows[i]| ==> CellAt(out.rows[i], j) == t.rows[i][j]
  {
    var t := DetectHeader(sheet);
    ExportKeepsSheet(world, t, selected);
  }

  /** The as-written run and the corrected one part ways exactly when no row
      is analysed. */
  lemma AsWrittenFailsOnlyWithoutRecords(world: World, t: Table, selected: Option<string>)
    requires KeepsCutoff(world.score, world.matcher)
    ensures Run(world, t, selected).Ok? && |Run(world, t, selected).value.records| > 0
            ==> RunAsWritten(world, t, selected) == Run(world, t, selected)
    ensures Run(world, t, selected).Ok? && |Run(world, t, selected).value.records| == 0
            ==> RunAsWritten(world, t, selected) == Err(NoResultColumn)
  {
  }

  /** The discrepancy: when no row names a company, the list of companies is
      empty, nothing is selected and no row is analysed; the run as written
      then stops, while the corrected run exports the sheet with an empty
      result column. */
  lemma NoCompanyBreaksExport(world: World, t: Table)
    requires KeepsCutoff(world.score, world.matcher)
    requires ColumnIndex(t.columns, CompanyHeading).Ok?
    requires forall i :: 0 <= i < |t.rows| ==> CellAt(t.rows[i], ColumnIndex(t.columns, CompanyHeading).value) == Blank
    ensures ValidSelection(t, None)
    ensures RunAsWritten(world, t, None) == Err(NoResultColumn)
    ensures Run(world, t, None).Ok?
  {
    var cc := ColumnIndex(t.columns, CompanyHeading).value;
    assert CompanyChoices(t) == Ok(DistinctValues(t.rows, cc));
    EmptyLikeEmpty([], DistinctValues(t.rows, cc));
    NoSelectionMatchesNothing(t.rows, cc);
    AsWrittenFailsOnlyWithoutRecords(world, t, None);
  }

  /** With nothing selected, the filter keeps no row. */
  lemma NoSelectionMatchesNothing(rows: seq<Row>, j: nat)
    ensures MatchingRows(rows, j, None) == []
  {
    var ix := MatchingRows(rows, j, None);
    if |ix| > 0 {
      NotMatched(rows, j, ix[0]);
    }
  }

  lemma NotMatched(rows: seq<Row>, j: nat, i: nat)
    ensures i !in MatchingRows(rows, j, None)
  {
  }

  /** Such a sheet exists: a header row and one data row whose company cell is
      empty. */
  lemma EmptyCompanyCellSheet(header: Row, data: Row)
    requires header == [Value(CompanyHeading), Value(FileHeading)]
    requires data == [Blank, Value("relatorio")]
    ensures ScanStaysInside([header, data])
    ensures DetectHeader([header, data]) == Table(Named([CompanyHeading, FileHeading]), [data])
  {
    HeaderRowFound(header);
    HeaderIndexIs([header, data], 0);
    assert Width([header, data]) == 2;
    HeaderNamesOf(header);
  }

  /** The discrepancy on that sheet: the run as written stops, the
      corrected run exports it. */
  lemma EmptyCompanyCellBreaksExport(world: World, header: Row, data: Row)
    requires KeepsCutoff(world.score, world.matcher)
    requires header == [Value(CompanyHeading), Value(FileHeading)]
    requires data == [Blank, Value("relatorio")]
    ensures ScanStaysInside([header, data])
    ensures RunAsWritten(world, DetectHeader([header, data]), None) == Err(NoResultColumn)
    ensures Run(world, DetectHeader([header, data]), None).Ok?
  {
    EmptyCompanyCellSheet(header, data);
    CompanyColumnFirst();
    var t := DetectHeader([header, data]);
    assert CellAt(t.rows[0], 0) == Blank;
    NoCompanyBreaksExport(world, t);
  }

  /** In that sheet the company column is the first one. */
  lemma CompanyColumnFirst()
    ensures ColumnIndex(Named([CompanyHeading, FileHeading]), CompanyHeading) == Ok(0)
  {
    assert |CompanyHeading| != |FileHeading|;
    FirstOfTwoColumns(CompanyHeading, FileHeading);
  }

  lemma FirstOfTwoColumns(a: string, b: string)
    requires a != b
    ensures ColumnIndex(Named([a, b]), a) == Ok(0)
  {
    PositionsOfTwo(a, b);
  }

  lemma PositionsOfTwo(a: string, b: string)
    requires a != b
    ensures PositionsOf([a, b], a) == [0]
  {
    var names := [a, b];
    assert names[..|names| - 1] == [a];
    PositionsOfOne(a);
  }

  lemma PositionsOfOne(a: string)
    ensures PositionsOf([a], a) == [0]
  {
    var names := [a];
    assert names[..|names| - 1] == [];
  }

  lemma HeaderRowFound(header: Row)
    requires header == [Value(CompanyHeading), Value(FileHeading)]
    ensures IsHeaderRow(header)
  {
    ContainsItself(CompanyHeading);
    assert CellText(header[0]) == CompanyHeading;
  }

  lemma ContainsItself(s: string)
    ensures Contains(s, s)
  {
    assert OccursAt(s, s, 0);
  }

  lemma HeaderNamesOf(header: Row)
    requires header == [Value(CompanyHeading), Value(FileHeading)]
    ensures HeaderNames(header, 2) == [CompanyHeading, FileHeading]
  {
    StripTrimmedWord(CompanyHeading);
    StripTrimmedWord(FileHeading);
  }

  lemma StripTrimmedWord(s: string)
    requires |s| > 0 && !IsSpace(s[0]) && !IsSpace(s[|s| - 1])
    ensures Strip(s) == s
  {
    assert s == "" + s + "";
    StripUnique(s, "", s, "");
  }
}

=== FILE: app_v2.dfy ===
/** appv2.py: the blob-storage viewer. It lists the PDF blobs of a container,
    lets the user pick one, reads its text and shows the sentences that
    mention one of the multilingual markers as a bullet list. The storage
    service is outside the model: the listing is a parameter (the names, or
    the message of the exception raised while connecting or listing), and so
    are the pages of a downloaded blob. */
module AppV2 {
  import opened Wrappers
  import opened Text
  import opened Seqs
  import opened Segmenter
  import opened Keywords
  import opened Widgets
  import PdfText
  import Pipeline

  const PdfSuffix: string := ".pdf"
  const BulletMark: string := "- "

  /** What the connection step yields: no connection string typed, or the
      result of connecting and listing. */
  datatype Connection = NoConnectionString | Connected(listing: Result<seq<string>, string>)

  /** `name.lower().endswith(".pdf")`. */
  predicate IsPdfName(name: string) {
    EndsWith(LowerStr(name), PdfSuffix)
  }

  /** The blob names offered for selection: the PDF names of a successful
      listing, in listing order; nothing without a connection string or when
      connecting or listing fails. */
  function BlobChoices(c: Connection): (names: seq<string>)
    ensures c.NoConnectionString? || c.listing.Err? ==> names == []
    ensures c.Connected? && c.listing.Ok? ==>
              IsSubsequence(names, c.listing.value)
              && (forall n :: n in names <==> n in c.listing.value && IsPdfName(n))
              && (forall n :: multiset(names)[n] == if IsPdfName(n) then multiset(c.listing.value)[n] else 0)
  {
    match c
    case NoConnectionString => []
    case Connected(Err(_)) => []
    case Connected(Ok(all)) => Filter(n => IsPdfName(n), all)
  }

  /** The name test reads the last four characters without regard to case. */
  lemma IsPdfNameIff(name: string)
    ensures IsPdfName(name) <==>
              |name| >= 4 && forall k :: 0 <= k < 4 ==> Lower(name[|name| - 4 + k]) == PdfSuffix[k]
  {
    var low := LowerStr(name);
    if |name| >= 4 {
      var tail := low[|low| - 4..];
      assert (forall k :: 0 <= k < 4 ==> tail[k] == Lower(name[|name| - 4 + k])) ;
      assert tail == PdfSuffix <==> forall k :: 0 <= k < 4 ==> tail[k] == PdfSuffix[k];
    }
  }

  /** An upper-case extension is accepted too. */
  lemma UpperCaseExtensionAccepted(stem: string)
    ensures IsPdfName(stem + ".PDF")
  {
    var name := stem + ".PDF";
    forall k | 0 <= k < 4
      ensures Lower(name[|name| - 4 + k]) == PdfSuffix[k]
    {
      assert name[|name| - 4 + k] == ".PDF"[k];
      LowerExtension(k);
    }
    IsPdfNameIff(name);
  }

  lemma LowerExtension(k: nat)
    requires k < 4
    ensures Lower(".PDF"[k]) == PdfSuffix[k]
  {
  }

  /** The text of the chosen blob: its pages joined by line breaks, exactly
      as `ler_pdf` reads a file the reader opens, or the empty text when
      nothing is chosen. */
  function ReportText(selected: Option<string>, download: string -> seq<string>): (text: string)
    ensures selected.None? || selected.value == "" ==> text == ""
    ensures selected.Some? && selected.value != "" ==> text == PdfText.ReadPdf(Ok(download(selected.value)))
    ensures selected.Some? && selected.value != "" && |download(selected.value)| > 1 ==> text != ""
  {
    if selected.Some? && selected.value != "" then
      var pages := download(selected.value);
      var text := Join(pages, '\n');
      if |pages| > 1 then
        assert SeparatorAfter(pages, '\n', text, 0);
        text
      else text
    else ""
  }

  /** What the page shows under the selection. */
  datatype Display = NothingShown | NoneIdentified | Bullets(lines: seq<string>)

  /** `if texto:` ... `st.write(f"- {r}")` for each recommendation, or the
      notice that none was identified. */
  function Show(text: string): (d: Display)
    ensures d.NothingShown? <==> text == ""
    ensures d.NoneIdentified? <==> text != "" && |ExtractRecommendations(Multilingual, text)| == 0
    ensures d.Bullets? ==>
              var recs := ExtractRecommendations(Multilingual, text);
              |d.lines| == |recs| > 0 && forall k :: 0 <= k < |recs| ==> d.lines[k] == BulletMark + recs[k]
  {
    if text == "" then NothingShown
    else
      var recs := ExtractRecommendations(Multilingual, text);
      if |recs| == 0 then NoneIdentified
      else Bullets(seq(|recs|, k requires 0 <= k < |recs| => BulletMark + recs[k]))
  }

  /** Each bullet line gives its recommendation back. */
  lemma BulletsGiveBackRecommendations(text: string, k: nat)
    requires Show(text).Bullets? && k < |Show(text).lines|
    ensures Unwrap(Show(text).lines[k], BulletMark, "") == Some(ExtractRecommendations(Multilingual, text)[k])
  {
    var recs := ExtractRecommendations(Multilingual, text);
    assert Show(text).lines[k] == BulletMark + recs[k] + "";
    UnwrapWrapped(BulletMark, recs[k], "");
  }

  /** One visit to the page: what is shown is what the chosen blob's text
      yields, read as `ler_pdf` reads a file; nothing is shown without a
      choice. */
  function Visit(conn: Connection, selected: Option<string>, download: string -> seq<string>): (d: Display)
    requires Offered(BlobChoices(conn), selected)
    ensures selected.None? || selected.value == "" ==> d.NothingShown?
    ensures selected.Some? && selected.value != "" ==> d == Show(PdfText.ReadPdf(Ok(download(selected.value))))
    ensures BlobChoices(conn) == [] ==> d.NothingShown?
    ensures !d.NothingShown? ==>
              conn.Connected? && conn.listing.Ok? && selected.Some?
              && selected.value in conn.listing.value && IsPdfName(selected.value)
  {
    Show(ReportText(selected, download))
  }

  /** appv2.py and appv1.py use the same markers: for the same report text,
      appv2.py lists recommendations exactly when appv1.py would mark the row
      as found, and says none were identified exactly when appv1.py writes
      the placeholder. */
  lemma SameFindingsAsV1(world: Pipeline.World, text: string)
    requires text != ""
    ensures var (status, listed) := Pipeline.Analyse(Pipeline.KeywordMarkers(Multilingual), world, text);
      && (Show(text).Bullets? <==> status == Pipeline.Found)
      && (Show(text).NoneIdentified? <==> listed == Pipeline.NothingListed)
  {
  }
}

=== FILE: keywords.dfy ===
/** The keyword strategy (`extrair_recomendacoes`): split the text into
    sentence-like pieces, keep those whose lower-cased form contains a marker,
    and strip each kept piece. One definition serves app.py (seven Portuguese
    markers) and appv1.py / appv2.py (the forty-two-entry list in four
    languages). */
module Keywords {
  import opened Text
  import opened Seqs
  import opened Segmenter

  /** `KEYWORDS` of appv1.py and appv2.py, in source order (the two files list
      the same entries; "sugerimos" and "indicamos" appear twice). */
  const Multilingual: seq<string> := [
    // Portuguese
    "recomenda", "deve ser", "é necessário", "sugerimos",
    "aconselhamos", "indicamos", "importante que",
    "é essencial que", "convém que",
    // English
    "recommend", "should", "must", "it is necessary",
    "we suggest", "we recommend", "we advise that",
    "critical that", "it is essential", "it is recommended that",
    "you ought to",
    // French
    "recommande", "doit être", "il est nécessaire",
    "nous suggérons", "nous conseillons", "nous indiquons",
    "il est important que", "il est essentiel que", "il faudrait",
    "nous recommandons", "vous devriez",
    // Spanish
    "recomienda", "debe ser", "es necesario",
    "sugerimos", "aconsejamos", "indicamos",
    "es importante que", "es esencial que", "debería",
    "recomendamos", "conviene que"
  ]

  /** `KEYWORDS` of app.py. */
  const Portuguese: seq<string> := [
    "recomenda", "deve ser", "é necessário", "sugerimos",
    "aconselhamos", "indicamos", "importante que"
  ]

  /** Seven markers for app.py and forty-two for appv1.py, the seven being the
      first seven of the forty-two, in the same order. */
  lemma MarkerLists()
    ensures |Portuguese| == 7 && |Multilingual| == 42
    ensures Portuguese == Multilingual[..7]
  {
    assert forall k :: 0 <= k < 7 ==> Portuguese[k] == Multilingual[k];
  }

  /** `any(kw in frase.lower() for kw in KEYWORDS)`: the markers are compared
      as written, the piece after lower-casing. */
  predicate MentionsMarker(markers: seq<string>, segment: string) {
    exists m | m in markers :: Contains(LowerStr(segment), m)
  }

  /** A piece mentions a marker exactly when, lower-cased, it holds one of the
      markers at some position. */
  lemma MentionsMarkerIff(markers: seq<string>, segment: string)
    ensures MentionsMarker(markers, segment) <==>
              exists m, k :: m in markers && OccursAt(LowerStr(segment), m, k)
  {
    var low := LowerStr(segment);
    if MentionsMarker(markers, segment) {
      var m :| m in markers && Contains(low, m);
      ContainsIff(low, m);
      var k :| OccursAt(low, m, k);
      assert exists m', k' :: m' in markers && OccursAt(LowerStr(segment), m', k');
    } else {
      forall m, k | m in markers && OccursAt(low, m, k)
        ensures false
      {
        ContainsIff(low, m);
      }
    }
  }

  /** The marker test of one list, as a value the generic filter can take. */
  function MarkerTest(markers: seq<string>): string -> bool {
    s => MentionsMarker(markers, s)
  }

  /** How many of `segments` pass `keep`. */
  function CountKept(keep: string -> bool, segments: seq<string>): nat
    decreases |segments|
  {
    if |segments| == 0 then 0
    else (if keep(segments[0]) then 1 else 0) + CountKept(keep, segments[1..])
  }

  /** `[frase.strip() for frase in frases if keep(frase)]`, computed. */
  function Kept(keep: string -> bool, segments: seq<string>): seq<string>
    decreases |segments|
  {
    if |segments| == 0 then []
    else (if keep(segments[0]) then [Strip(segments[0])] else []) + Kept(keep, segments[1..])
  }

  /** The comprehension with what it promises: one item per passing piece,
      each the stripped form of a passing piece, and nothing exactly when no
      piece passes. */
  function Retain(keep: string -> bool, segments: seq<string>): (recs: seq<string>)
    ensures |recs| == CountKept(keep, segments) <= |segments|
    ensures forall j :: 0 <= j < |recs| ==>
              exists i :: 0 <= i < |segments| && keep(segments[i]) && recs[j] == Strip(segments[i])
    ensures forall j :: 0 <= j < |recs| ==> IsTrimmed(recs[j])
    ensures |recs| == 0 <==> forall s :: s in segments ==> !keep(s)
  {
    KeptCount(keep, segments);
    KeptSound(keep, segments);
    KeptEmpty(keep, segments);
    Kept(keep, segments)
  }

  lemma {:induction false} KeptCount(keep: string -> bool, segments: seq<string>)
    ensures |Kept(keep, segments)| == CountKept(keep, segments) <= |segments|
    decreases |segments|
  {
    if |segments| > 0 {
      KeptCount(keep, segments[1..]);
    }
  }

  /** `rec` is the stripped form of a piece of `segments` that passes `keep`. */
  predicate StrippedPassing(keep: string -> bool, segments: seq<string>, rec: string) {
    IsTrimmed(rec) && exists i :: 0 <= i < |segments| && keep(segments[i]) && rec == Strip(segments[i])
  }

  lemma {:induction false} KeptSound(keep: string -> bool, segments: seq<string>)
    ensures forall j :: 0 <= j < |Kept(keep, segments)| ==> StrippedPassing(keep, segments, Kept(keep, segments)[j])
    decreases |segments|
  {
    if |segments| > 0 {
      var tail := segments[1..];
      var rest := Kept(keep, tail);
      KeptSound(keep, tail);
      var head := if keep(segments[0]) then [Strip(segments[0])] else [];
      var recs := head + rest;
      assert Kept(keep, segments) == recs;
      forall j | 0 <= j < |recs|
        ensures StrippedPassing(keep, segments, recs[j])
      {
        if j < |head| {
          assert recs[j] == Strip(segments[0]);
        } else {
          var jj := j - |head|;
          assert recs[j] == rest[jj];
          assert StrippedPassing(keep, tail, rest[jj]);
          var i :| 0 <= i < |tail| && keep(tail[i]) && rest[jj] == Strip(tail[i]);
          assert segments[i + 1] == tail[i];
        }
      }
    }
  }

  lemma {:induction false} KeptEmpty(keep: string -> bool, segments: seq<string>)
    ensures |Kept(keep, segments)| == 0 <==> forall s :: s in segments ==> !keep(s)
    decreases |segments|
  {
    if |segments| > 0 {
      var tail := segments[1..];
      KeptEmpty(keep, tail);
      assert forall s :: s in segments <==> s == segments[0] || s in tail;
    }
  }

  /** Kept pieces appear in the order of the pieces they come from: the piece
      at index `i` lands at the index given by the number of earlier pieces
      that were kept. */
  lemma RetainInOrder(keep: string -> bool, segments: seq<string>, i: nat)
    requires i < |segments| && keep(segments[i])
    ensures CountKept(keep, segments[..i]) < |Retain(keep, segments)|
    ensures Retain(keep, segments)[CountKept(keep, segments[..i])] == Strip(segments[i])
  {
    KeptInOrder(keep, segments, i);
  }

  lemma {:induction false} KeptInOrder(keep: string -> bool, segments: seq<string>, i: nat)
    requires i < |segments| && keep(segments[i])
    ensures CountKept(keep, segments[..i]) < |Kept(keep, segments)|
    ensures Kept(keep, segments)[CountKept(keep, segments[..i])] == Strip(segments[i])
    decreases i
  {
    var tail := segments[1..];
    var head := if keep(segments[0]) then [Strip(segments[0])] else [];
    assert Kept(keep, segments) == head + Kept(keep, tail);
    if i > 0 {
      KeptInOrder(keep, tail, i - 1);
      assert segments[..i][1..] == tail[..i - 1];
      assert CountKept(keep, segments[..i]) == |head| + CountKept(keep, tail[..i - 1]);
    } else {
      assert CountKept(keep, segments[..i]) == 0;
    }
  }

  /** The recommendations `extrair_recomendacoes(texto)` returns. */
  function ExtractRecommendations(markers: seq<string>, text: string): (recs: seq<string>)
    ensures |recs| == CountKept(MarkerTest(markers), Split(text)) <= |Split(text)|
    ensures forall j :: 0 <= j < |recs| ==>
              exists i :: 0 <= i < |Split(text)| && MentionsMarker(markers, Split(text)[i])
                          && recs[j] == Strip(Split(text)[i])
    ensures forall j :: 0 <= j < |recs| ==> IsTrimmed(recs[j])
    ensures |recs| == 0 <==> forall s :: s in Split(text) ==> !MentionsMarker(markers, s)
  {
    Retain(MarkerTest(markers), Split(text))
  }

  /** Every piece that mentions a marker is returned, stripped, at the place
      fixed by the number of earlier pieces that mention one. */
  lemma ExtractComplete(markers: seq<string>, text: string, i: nat)
    requires i < |Split(text)| && MentionsMarker(markers, Split(text)[i])
    ensures var recs := ExtractRecommendations(markers, text);
      && CountKept(MarkerTest(markers), Split(text)[..i]) < |recs|
      && recs[CountKept(MarkerTest(markers), Split(text)[..i])] == Strip(Split(text)[i])
  {
    RetainInOrder(MarkerTest(markers), Split(text), i);
  }

  /** A weaker test never keeps more: whatever `a` keeps, `b` keeps too, so the
      result under `a` is a subsequence of the result under `b`. */
  lemma RetainMonotone(a: string -> bool, b: string -> bool, segments: seq<string>)
    requires forall s :: a(s) ==> b(s)
    ensures IsSubsequence(Retain(a, segments), Retain(b, segments))
  {
    KeptMonotone(a, b, segments);
  }

  lemma {:induction false} KeptMonotone(a: string -> bool, b: string -> bool, segments: seq<string>)
    requires forall s :: a(s) ==> b(s)
    ensures IsSubsequence(Kept(a, segments), Kept(b, segments))
    decreases |segments|
  {
    if |segments| > 0 {
      KeptMonotone(a, b, segments[1..]);
      var ra, rb := Kept(a, segments[1..]), Kept(b, segments[1..]);
      var s := segments[0];
      if a(s) {
        assert Kept(a, segments) == [Strip(s)] + ra;
        assert Kept(b, segments) == [Strip(s)] + rb;
        assert ([Strip(s)] + ra)[1..] == ra;
        assert ([Strip(s)] + rb)[1..] == rb;
      } else if b(s) {
        assert Kept(a, segments) == ra;
        assert Kept(b, segments) == [Strip(s)] + rb;
        assert ([Strip(s)] + rb)[1..] == rb;
      } else {
        assert Kept(a, segments) == ra;
        assert Kept(b, segments) == rb;
      }
    }
  }

  /** Every recommendation app.py finds, appv1.py finds as well, in the same
      relative order: the seven markers are among the forty-two. */
  lemma PortugueseFindingsAreMultilingualFindings(text: string)
    ensures IsSubsequence(ExtractRecommendations(Portuguese, text),
                          ExtractRecommendations(Multilingual, text))
  {
    assert forall m :: m in Portuguese ==> m in Multilingual;
    RetainMonotone(MarkerTest(Portuguese), MarkerTest(Multilingual), Split(text));
  }

  /** Matching ignores case on the text side: a piece that contains an
      upper-case spelling of a marker is kept. */
  lemma UpperCaseSpellingIsFound(markers: seq<string>, segment: string, word: string)
    requires Contains(segment, word) && LowerStr(word) in markers
    ensures MentionsMarker(markers, segment)
  {
    LowerKeepsOccurrence(segment, word);
  }

  /** A piece that shouts "RECOMENDA" is among app.py's recommendations. */
  lemma ShoutedRecomendaIsKept(text: string, segment: string)
    requires segment in Split(text) && Contains(segment, "RECOMENDA")
    ensures Strip(segment) in ExtractRecommendations(Portuguese, text)
  {
    LowerRecomenda();
    UpperCaseSpellingIsFound(Portuguese, segment, "RECOMENDA");
    var i :| 0 <= i < |Split(text)| && Split(text)[i] == segment;
    ExtractComplete(Portuguese, text, i);
  }

  lemma LowerRecomenda()
    ensures LowerStr("RECOMENDA") in Portuguese
  {
    assert LowerStr("RECOMENDA") == "recomenda";
  }

  /** A piece with no terminator before its last character holds no match. */
  lemma NoBoundaryWithoutTerminator(a: string, tail: string)
    requires NoTerminator(a) && |tail| <= 1
    ensures !HasBoundary(a + tail)
  {
    forall i | 0 <= i && i + 1 < |a + tail|
      ensures !IsTerminator((a + tail)[i])
    {
      assert (a + tail)[i] == a[i];
      assert a[i] in a;
    }
  }

  /** A worked example: with app.py's markers, "Sugerimos revisar o processo. O clima estava bom."
      yields only its first sentence. */
  lemma SugerimosExample(text: string)
    requires text == "Sugerimos revisar o processo. O clima estava bom."
    ensures ExtractRecommendations(Portuguese, text) == ["Sugerimos revisar o processo"]
  {
    var pieces := Split(text);
    SugerimosSplit(text, "Sugerimos revisar o processo", "O clima estava bom.");
    FirstSentenceKept(pieces[0]);
    SecondSentenceDropped(pieces[1]);
    KeepFirstOfTwo(MarkerTest(Portuguese), pieces[0], pieces[1]);
  }

  /** Of two pieces where only the first passes, only the first is kept; a
      first piece without surrounding white space is kept as it is. */
  lemma KeepFirstOfTwo(keep: string -> bool, a: string, b: string)
    requires keep(a) && !keep(b) && IsTrimmed(a)
    ensures Retain(keep, [a, b]) == [a]
  {
    assert Kept(keep, [b]) == Kept(keep, []);
    assert Kept(keep, [a, b]) == [Strip(a)] + Kept(keep, [b]);
    assert [a, b][1..] == [b];
    assert [b][1..] == [];
    assert "" + a + "" == a;
    StripUnique(a, "", a, "");
  }

  /** The example splits at ". " into its two sentences. */
  lemma SugerimosSplit(text: string, a: string, b: string)
    requires text == "Sugerimos revisar o processo. O clima estava bom."
    requires a == "Sugerimos revisar o processo" && b == "O clima estava bom."
    ensures Split(text) == [a, b]
  {
    var s1 := "O clima estava bom";
    SugerimosPieces(text, a, b, s1);
    TwoSentences(a, ". ", s1);
  }

  lemma SugerimosPieces(text: string, a: string, b: string, s1: string)
    requires text == "Sugerimos revisar o processo. O clima estava bom."
    requires a == "Sugerimos revisar o processo" && b == "O clima estava bom."
    requires s1 == "O clima estava bom"
    ensures NoTerminator(a) && NoTerminator(s1) && IsSeparator(". ")
    ensures |s1| > 0 && !IsSpace(s1[0])
    ensures text == a + ". " + s1 + "." && b == s1 + "."
  {
    SugerimosNoTerminator(a, s1);
    SugerimosConcat(text, a, b, s1);
  }

  lemma SugerimosNoTerminator(a: string, s1: string)
    requires a == "Sugerimos revisar o processo" && s1 == "O clima estava bom"
    ensures NoTerminator(a) && NoTerminator(s1)
  {
    FirstSentenceNoTerminator(a);
    SecondSentenceNoTerminator(s1);
  }

  lemma FirstSentenceNoTerminator(a: string)
    requires a == "Sugerimos revisar o processo"
    ensures NoTerminator(a)
  {
  }

  lemma SecondSentenceNoTerminator(s1: string)
    requires s1 == "O clima estava bom"
    ensures NoTerminator(s1)
  {
  }

  lemma SugerimosConcat(text: string, a: string, b: string, s1: string)
    requires text == "Sugerimos revisar o processo. O clima estava bom."
    requires a == "Sugerimos revisar o processo" && b == "O clima estava bom."
    requires s1 == "O clima estava bom"
    ensures text == a + ". " + s1 + "." && b == s1 + "."
  {
  }

  predicate NoTerminator(s: string) {
    '.' !in s && '!' !in s && '?' !in s
  }

  /** Two terminator-free sentences, the first followed by a separator and the
      second by a final full stop, split into exactly those two pieces. */
  lemma TwoSentences(a: string, d: string, s1: string)
    requires NoTerminator(a) && NoTerminator(s1) && IsSeparator(d)
    requires |s1| > 0 && !IsSpace(s1[0])
    ensures Split(a + d + s1 + ".") == [a, s1 + "."]
  {
    var text := a + d + s1 + ".";
    var g := Segmentation([a, s1 + "."], [d]);
    NoBoundaryWithoutTerminator(a, "");
    assert a + "" == a;
    NoBoundaryWithoutTerminator(s1, ".");
    assert Rejoin(g.segments, g.separators) == a + d + (s1 + ".");
    assert text == a + d + (s1 + ".");
    assert IsSegmentationOf(text, g);
    SegmentUnique(text, g);
  }

  /** "Sugerimos" lower-cases to the marker "sugerimos". */
  lemma FirstSentenceKept(a: string)
    requires a == "Sugerimos revisar o processo"
    ensures MentionsMarker(Portuguese, a) && IsTrimmed(a)
  {
    StartsWithSugerimos(a);
    LowerSugerimos();
    UpperCaseSpellingIsFound(Portuguese, a, "Sugerimos");
  }

  lemma StartsWithSugerimos(a: string)
    requires a == "Sugerimos revisar o processo"
    ensures Contains(a, "Sugerimos") && IsTrimmed(a)
  {
    assert a[..9] == "Sugerimos";
  }

  lemma LowerSugerimos()
    ensures LowerStr("Sugerimos") in Portuguese
  {
    assert LowerStr("Sugerimos") == "sugerimos";
  }

  /** "o clima estava bom." contains none of app.py's markers. */
  lemma SecondSentenceDropped(b: string)
    requires b == "O clima estava bom."
    ensures !MentionsMarker(Portuguese, b)
  {
    LowerClima(b);
    ClimaLacksKeyChars(LowerStr(b));
    MissingKeyCharsNotMentioned(b);
  }

  lemma LowerClima(b: string)
    requires b == "O clima estava bom."
    ensures LowerStr(b) == "o clima estava bom."
  {
  }

  lemma ClimaLacksKeyChars(low: string)
    requires low == "o clima estava bom."
    ensures 'r' !in low && 'd' !in low && 'é' !in low && 'g' !in low && 'n' !in low && 'p' !in low
  {
  }

  lemma MissingKeyCharsNotMentioned(b: string)
    requires var low := LowerStr(b);
      'r' !in low && 'd' !in low && 'é' !in low && 'g' !in low && 'n' !in low && 'p' !in low
    ensures !MentionsMarker(Portuguese, b)
  {
    NoPortugueseMarker(LowerStr(b));
  }

  /** Each of app.py's markers holds one of `r`, `d`, `é`, `g`, `n`, `p`, so a
      string without those characters contains none of them. */
  lemma NoPortugueseMarker(low: string)
    requires 'r' !in low && 'd' !in low && 'é' !in low && 'g' !in low && 'n' !in low && 'p' !in low
    ensures forall m | m in Portuguese :: !Contains(low, m)
  {
    MissingCharExcludes(low, "recomenda", 'r');
    MissingCharExcludes(low, "deve ser", 'd');
    MissingCharExcludes(low, "é necessário", 'é');
    MissingCharExcludes(low, "sugerimos", 'g');
    MissingCharExcludes(low, "aconselhamos", 'n');
    MissingCharExcludes(low, "indicamos", 'n');
    MissingCharExcludes(low, "importante que", 'p');
  }
}

=== FILE: model_prompt.dfy ===
/** The model strategies of app_ia.py (`extrair_recomendacoes_ia`, a hosted
    chat model) and app_llama.py (`extrair_recomendacoes_llama`, a local
    model): keep the last 3000 characters of the report, wrap them in a fixed
    instruction, hand that to the engine, and turn the engine's answer or
    failure into one string. The engines themselves are outside the model: a
    `Service` parameter answers each request with the reply text or the
    message of the exception raised on the way. */
module ModelPrompt {
  import opened Wrappers
  import opened Text

  /** The number of trailing characters both strategies send. */
  const WindowSize: nat := 3000

  /** `texto[-3000:]`: the last `WindowSize` characters, or the whole text when
      it is shorter. */
  function TrailingWindow(text: string): (w: string)
    ensures |w| == if |text| < WindowSize then |text| else WindowSize
    ensures w == text[|text| - |w|..]
  {
    if |text| <= WindowSize then text else text[|text| - WindowSize..]
  }

  /** Text in front of the last `WindowSize` characters never reaches the
      engine. */
  lemma WindowIgnoresPrefix(front: string, text: string)
    requires |text| >= WindowSize
    ensures TrailingWindow(front + text) == TrailingWindow(text)
  {
    var t := front + text;
    assert t[|t| - WindowSize..] == text[|text| - WindowSize..];
  }

  /** A window is its own window. */
  lemma WindowIdempotent(text: string)
    ensures TrailingWindow(TrailingWindow(text)) == TrailingWindow(text)
  {
  }

  /** The two engines. */
  datatype Engine = HostedChat | LocalLlama

  /** What the engine is asked. The chat request carries the model name, a
      system message, the user message and the temperature; the local request
      is a single prompt (its token limit and stop marker are not modelled). */
  datatype Request =
    | ChatRequest(model: string, system: string, user: string, temperature: real)
    | PromptRequest(prompt: string)

  /** The engine's answer: the reply text (`choices[0]` content, before any
      trimming) or the message of the exception raised while asking. */
  type Service = Request -> Result<string, string>

  const ChatModel: string := "gpt-3.5-turbo"
  const ChatTemperature: real := 0.2
  const ChatSystem: string :=
    "Você é um especialista técnico. Extraia recomendações das conclusões de relatórios."

  /** The instruction lines of the chat prompt. */
  const ChatIntro: string :=
    "Você é um especialista técnico. Abaixo está um trecho das conclusões de um relatório técnico.\n"
    + "Extraia apenas as recomendações encontradas nas conclusões, em formato de lista com marcadores (bullet points).\n"
    + "Ignore qualquer informação que não seja uma sugestão, orientação ou ação proposta.\n\n"

  /** The line that introduces the quoted window in the chat prompt. */
  const ChatQuoteOpen: string := "Texto:\n\"\"\"\n"

  /** The first line of the local prompt. */
  const LlamaMarker: string := "### Instrução:\n"

  /** The instruction lines of the local prompt. */
  const LlamaIntro: string :=
    "Você é um especialista técnico. Abaixo está um trecho das conclusões de um relatório técnico.\n"
    + "Extraia apenas as recomendações encontradas nas conclusões, em formato de bullet points.\n"
    + "Ignore qualquer conteúdo que não seja sugestão ou ação recomendada.\n\n"

  /** The fixed text before the window in each engine's prompt. */
  function PromptHead(engine: Engine): string {
    match engine
    case HostedChat => ChatIntro + ChatQuoteOpen
    case LocalLlama => LlamaMarker + LlamaIntro
  }

  /** The fixed text after the window. */
  function PromptTail(engine: Engine): string {
    match engine
    case HostedChat => "\n\"\"\""
    case LocalLlama => "\n\n### Resposta:"
  }

  /** The start of the text that replaces the answer when asking fails. */
  function FailurePrefix(engine: Engine): string {
    match engine
    case HostedChat => "[Erro ao usar OpenAI: "
    case LocalLlama => "[Erro ao processar com LLaMA: "
  }

  const FailureSuffix: string := "]"

  /** `prompt_inicial` (app_ia.py) or `prompt` (app_llama.py). */
  function Prompt(engine: Engine, text: string): (p: string)
    ensures Unwrap(p, PromptHead(engine), PromptTail(engine)) == Some(TrailingWindow(text))
  {
    var p := PromptHead(engine) + TrailingWindow(text) + PromptTail(engine);
    UnwrapWrapped(PromptHead(engine), TrailingWindow(text), PromptTail(engine));
    p
  }

  /** The text the engine is asked to continue: the user message of a chat
      request, the whole prompt of a local one. */
  function PromptOf(req: Request): string {
    match req
    case ChatRequest(_, _, user, _) => user
    case PromptRequest(prompt) => prompt
  }

  /** The request each engine receives for a report text: the chat engine gets
      the fixed model name, system message and temperature. */
  function RequestFor(engine: Engine, text: string): (req: Request)
    ensures PromptOf(req) == Prompt(engine, text)
    ensures req.ChatRequest? <==> engine.HostedChat?
    ensures req.ChatRequest? ==>
              req.model == ChatModel && req.system == ChatSystem && req.temperature == ChatTemperature
  {
    match engine
    case HostedChat => ChatRequest(ChatModel, ChatSystem, Prompt(engine, text), ChatTemperature)
    case LocalLlama => PromptRequest(Prompt(engine, text))
  }

  /** What the strategy returns for the engine's answer: the reply without
      surrounding white space, or the failure text. */
  function Answer(engine: Engine, reply: Result<string, string>): (r: string)
    ensures reply.Ok? ==> IsTrimmed(r) && exists i :: SpaceFramed(reply.value, i, r)
    ensures reply.Ok? ==> |r| <= |reply.value|
    ensures reply.Ok? ==> (r == [] <==> AllSpace(reply.value))
    ensures reply.Err? ==> Unwrap(r, FailurePrefix(engine), FailureSuffix) == Some(reply.error)
  {
    match reply
    case Ok(content) =>
      StripFramed(content);
      Strip(content)
    case Err(msg) =>
      UnwrapWrapped(FailurePrefix(engine), msg, FailureSuffix);
      FailurePrefix(engine) + msg + FailureSuffix
  }

  /** `extrair_recomendacoes_ia(texto)` / `extrair_recomendacoes_llama(texto)`:
      ask the engine about the window and return its answer as one string. No
      failure of the engine escapes. */
  function ModelRecommendations(engine: Engine, service: Service, text: string): (r: string)
    ensures service(RequestFor(engine, text)).Ok? ==>
              r == Strip(service(RequestFor(engine, text)).value)
    ensures service(RequestFor(engine, text)).Err? ==>
              Unwrap(r, FailurePrefix(engine), FailureSuffix) == Some(service(RequestFor(engine, text)).error)
  {
    Answer(engine, service(RequestFor(engine, text)))
  }

  /** Two reports that end in the same `WindowSize` characters produce the
      same request: the engine sees nothing else. The answers agree too when
      the service answers a request the same way each time, which the model's
      service does and a sampling engine need not. */
  lemma ModelSeesOnlyWindow(engine: Engine, service: Service, front: string, text: string)
    requires |text| >= WindowSize
    ensures RequestFor(engine, front + text) == RequestFor(engine, text)
    ensures ModelRecommendations(engine, service, front + text) == ModelRecommendations(engine, service, text)
  {
    WindowIgnoresPrefix(front, text);
  }

  /** A reply that happens to read like the failure text cannot be told from a
      real failure: the result is the same string. */
  lemma FailureLooksLikeReply(engine: Engine, msg: string)
    ensures Answer(engine, Ok(FailurePrefix(engine) + msg + FailureSuffix)) == Answer(engine, Err(msg))
  {
    var s := FailurePrefix(engine) + msg + FailureSuffix;
    assert s[0] == '[' && s[|s| - 1] == ']';
    assert s == "" + s + "";
    StripUnique(s, "", s, "");
  }

  /** A failure is never reported as an empty answer. */
  lemma FailureIsNotEmpty(engine: Engine, msg: string)
    ensures |Answer(engine, Err(msg))| > |msg|
  {
  }

  /** The chat prompt ends with the window between triple quotes, after the
      line `Texto:`. */
  lemma ChatPromptQuotesWindow(text: string)
    ensures var p := Prompt(HostedChat, text);
      var tail := ChatQuoteOpen + TrailingWindow(text) + PromptTail(HostedChat);
      |tail| <= |p| && p[|p| - |tail|..] == tail
  {
    PromptPieces(HostedChat, text);
    LastThree(ChatIntro, ChatQuoteOpen, TrailingWindow(text), PromptTail(HostedChat));
  }

  /** The local prompt opens with the instruction marker. */
  lemma LlamaPromptOpens(text: string)
    ensures var p := Prompt(LocalLlama, text);
      |p| >= |LlamaMarker| && p[..|LlamaMarker|] == LlamaMarker
  {
    PromptPieces(LocalLlama, text);
    FirstAndLastTwo(LlamaMarker, LlamaIntro, TrailingWindow(text), PromptTail(LocalLlama));
  }

  /** The local prompt closes with the window followed by the answer marker. */
  lemma LlamaPromptCloses(text: string)
    ensures var p := Prompt(LocalLlama, text);
      var tail := TrailingWindow(text) + PromptTail(LocalLlama);
      |p| >= |tail| && p[|p| - |tail|..] == tail
  {
    PromptPieces(LocalLlama, text);
    FirstAndLastTwo(LlamaMarker, LlamaIntro, TrailingWindow(text), PromptTail(LocalLlama));
  }

  lemma PromptPieces(engine: Engine, text: string)
    ensures Prompt(engine, text) == PromptHead(engine) + TrailingWindow(text) + PromptTail(engine)
  {
  }

  lemma LastThree(a: string, b: string, c: string, d: string)
    ensures var s := a + b + c + d;
      |b + c + d| <= |s| && s[|s| - |b + c + d|..] == b + c + d
  {
    assert a + b + c + d == a + (b + c + d);
    ConcatParts(a, b + c + d);
  }

  lemma FirstAndLastTwo(a: string, b: string, c: string, d: string)
    ensures var s := a + b + c + d;
      && |s| >= |a| + |c + d|
      && s[..|a|] == a
      && s[|s| - |c + d|..] == c + d
  {
    assert a + b + c + d == a + (b + (c + d)) == (a + b) + (c + d);
    ConcatParts(a, b + (c + d));
    ConcatParts(a + b, c + d);
  }
}

=== FILE: pdf_text.dfy ===
/** `ler_pdf`: the text of a PDF report, as every file but appv2.py reads it.
    The document reader is outside the model; what it hands back is a
    parameter: the text of each page, in page order, or the message of the
    exception it raised. */
module PdfText {
  import opened Wrappers
  import opened Text

  /** The reader's answer for one file. */
  type PageRead = Result<seq<string>, string>

  const ReadErrorPrefix: string := "[Erro ao ler o PDF: "
  const ReadErrorSuffix: string := "]"

  /** `"\n".join(page.get_text() for page in doc)`, or the error text when the
      reader fails; the function never fails itself. */
  function ReadPdf(read: PageRead): (text: string)
    ensures read.Ok? ==>
              (|read.value| == 0 ==> text == [])
              && (|read.value| > 0 ==> |text| + 1 == Offset(read.value, |read.value|))
              && (forall k :: 0 <= k < |read.value| ==> PartAt(read.value, text, k))
              && (forall k :: 0 <= k < |read.value| - 1 ==> SeparatorAfter(read.value, '\n', text, k))
    ensures read.Err? ==> Unwrap(text, ReadErrorPrefix, ReadErrorSuffix) == Some(read.error)
  {
    match read
    case Ok(pages) => Join(pages, '\n')
    case Err(msg) =>
      UnwrapWrapped(ReadErrorPrefix, msg, ReadErrorSuffix);
      ReadErrorPrefix + msg + ReadErrorSuffix
  }

  /** The pages of a document come back from its text by splitting at line
      breaks, provided at least one page exists and no page holds a line
      break of its own. */
  lemma PagesRecoverable(pages: seq<string>)
    requires |pages| >= 1
    requires forall k :: 0 <= k < |pages| ==> '\n' !in pages[k]
    ensures SplitOn(ReadPdf(Ok(pages)), '\n') == pages
  {
    SplitOnJoin(pages, '\n');
  }

  /** The text of a failed read carries the reader's message between the two
      fixed pieces of the error text. */
  lemma FailureCarriesMessage(msg: string)
    ensures var text := ReadPdf(Err(msg));
      |text| == |ReadErrorPrefix| + |msg| + |ReadErrorSuffix|
      && text[..|ReadErrorPrefix|] == ReadErrorPrefix
      && text[|ReadErrorPrefix|..|ReadErrorPrefix| + |msg|] == msg
  {
    var text := ReadPdf(Err(msg));
    assert text == ReadErrorPrefix + msg + ReadErrorSuffix;
  }

  /** The error text is an ordinary string: a one-page document whose page
      reads exactly like it yields the same text as a failed read, so callers
      cannot tell the two apart. */
  lemma FailureLooksLikeText(msg: string)
    ensures ReadPdf(Ok([ReadErrorPrefix + msg + ReadErrorSuffix])) == ReadPdf(Err(msg))
  {
  }
}

=== FILE: pipeline.dfy ===
/** The per-row loop shared by app.py, appv1.py, app_ia.py and app_llama.py:
    read the company and file cells, find the report, read it, extract the
    recommendations, and add one result record with a status. The apps differ
    only in how recommendations are extracted (keyword markers or a model
    engine) and, for the keyword apps, in the numbered list they write. */
module Pipeline {
  import opened Wrappers
  import opened Text
  import opened Segmenter
  import opened Keywords
  import opened PdfText
  import opened ModelPrompt
  import opened Resolver
  import opened Sheet

  /** The four outcomes the loop reports. */
  datatype Status = Found | NoRecommendations | FileNotFound | FolderNotFound

  /** The text written in the "Status" column. */
  function StatusText(s: Status): string {
    match s
    case Found => "Encontrado"
    case NoRecommendations => "Sem recomendações"
    case FileNotFound => "Arquivo não encontrado (nome parecido não encontrado)"
    case FolderNotFound => "Pasta FINAL não encontrada"
  }

  /** Different outcomes are written differently. */
  lemma StatusTextInjective(a: Status, b: Status)
    requires StatusText(a) == StatusText(b)
    ensures a == b
  {
  }

  /** How recommendations are extracted from a report text. */
  datatype Strategy = KeywordMarkers(markers: seq<string>) | ModelEngine(engine: Engine)

  /** Everything outside the program a row depends on. */
  datatype World = World(
    fs: FileSystem,
    score: Score,
    matcher: Matcher,
    reader: string -> PageRead,
    service: Service)

  /** One line of the result table. */
  datatype Record = Record(company: string, file: string, status: Status, recommendations: string)

  /** The placeholder written when there is nothing to list. */
  const NothingListed: string := "-"

  // ---------------------------------------------------------------------------
  // Numbered list
  // ---------------------------------------------------------------------------

  /** `f"{i+1}. {rec}"` for each recommendation. */
  function NumberedLines(recs: seq<string>, first: nat): (lines: seq<string>)
    ensures |lines| == |recs|
    ensures forall k :: 0 <= k < |recs| ==> lines[k] == NatToString(first + k) + ". " + recs[k]
    decreases |recs|
  {
    if |recs| == 0 then []
    else [NatToString(first) + ". " + recs[0]] + NumberedLines(recs[1..], first + 1)
  }

  /** `"\n".join(...) if recomendacoes else "-"`: "-" exactly when nothing was
      found; otherwise, counting from 1, line k is `str(k) + ". "` and the k-th
      recommendation, each line at its place and one line break between neighbours. */
  function FormatNumbered(recs: seq<string>): (s: string)
    ensures |recs| == 0 <==> s == NothingListed
    ensures |recs| > 0 ==> forall k :: 0 <= k < |recs| ==> PartAt(NumberedLines(recs, 1), s, k)
    ensures |recs| > 0 ==> forall k :: 0 <= k < |recs| - 1 ==> SeparatorAfter(NumberedLines(recs, 1), '\n', s, k)
  {
    if |recs| == 0 then NothingListed
    else
      var s := Join(NumberedLines(recs, 1), '\n');
      assert PartAt(NumberedLines(recs, 1), s, 0);
      assert s[..|NumberedLines(recs, 1)[0]|] == NumberedLines(recs, 1)[0];
      assert s[0] == NatToString(1)[0];
      s
  }

  /** Reads a numbered list back: "-" is the empty list; otherwise each line
      must start with its 1-based number and ". ". */
  function ParseNumbered(s: string): Option<seq<string>> {
    if s == NothingListed then Some([])
    else StripNumbers(SplitOn(s, '\n'), 1)
  }

  function StripNumbers(lines: seq<string>, first: nat): Option<seq<string>>
    decreases |lines|
  {
    if |lines| == 0 then Some([])
    else
      match (Unwrap(lines[0], NatToString(first) + ". ", ""), StripNumbers(lines[1..], first + 1))
      case (Some(r), Some(rest)) => Some([r] + rest)
      case _ => None
  }

  lemma {:induction false} StripNumbersOfNumbered(recs: seq<string>, first: nat)
    ensures StripNumbers(NumberedLines(recs, first), first) == Some(recs)
    decreases |recs|
  {
    if |recs| > 0 {
      var lines := NumberedLines(recs, first);
      var head := NatToString(first) + ". ";
      assert lines[0] == head + recs[0] + "";
      UnwrapWrapped(head, recs[0], "");
      assert lines[1..] == NumberedLines(recs[1..], first + 1);
      StripNumbersOfNumbered(recs[1..], first + 1);
      assert recs == [recs[0]] + recs[1..];
    }
  }

  /** The numbered list gives the recommendations back, as long as none of
      them holds a line break of its own. */
  lemma {:induction false} FormatParseRoundTrip(recs: seq<string>)
    requires forall k :: 0 <= k < |recs| ==> '\n' !in recs[k]
    ensures ParseNumbered(FormatNumbered(recs)) == Some(recs)
  {
    if |recs| > 0 {
      var lines := NumberedLines(recs, 1);
      forall k | 0 <= k < |lines|
        ensures '\n' !in lines[k]
      {
        NoBreakInLine(NatToString(1 + k), recs[k]);
      }
      SplitOnJoin(lines, '\n');
      StripNumbersOfNumbered(recs, 1);
    }
  }

  lemma NoBreakInLine(num: string, rec: string)
    requires forall i :: 0 <= i < |num| ==> IsDigit(num[i])
    requires '\n' !in rec
    ensures '\n' !in num + ". " + rec
  {
  }

  /** With a line break inside a recommendation the list is ambiguous: one
      recommendation can read exactly like two. */
  lemma NumberedListAmbiguous(a: string, b: string)
    ensures FormatNumbered([a + "\n2. " + b]) == FormatNumbered([a, b])
  {
    var one := NumberedLines([a + "\n2. " + b], 1);
    var two := NumberedLines([a, b], 1);
    assert NatToString(1) == "1" && NatToString(2) == "2";
    assert |one| == 1 && one[0] == "1. " + (a + "\n2. " + b);
    assert |two| == 2 && two[0] == "1. " + a && two[1] == "2. " + b;
    assert two[1..] == ["2. " + b];
    assert Join(two, '\n') == "1. " + a + ['\n'] + ("2. " + b);
  }

  // ---------------------------------------------------------------------------
  // One row
  // ---------------------------------------------------------------------------

  /** The recommendations column and the status for a report that was found,
      read and analysed. */
  function Analyse(strategy: Strategy, world: World, text: string): (out: (Status, string))
    ensures strategy.KeywordMarkers? ==>
              var recs := ExtractRecommendations(strategy.markers, text);
              && (out.0 == Found <==> |recs| > 0)
              && (out.0 != Found ==> out.0 == NoRecommendations)
              && out.1 == FormatNumbered(recs)
    ensures strategy.ModelEngine? ==>
              out.0 == Found && out.1 == ModelRecommendations(strategy.engine, world.service, text)
  {
    match strategy
    case KeywordMarkers(markers) =>
      var recs := ExtractRecommendations(markers, text);
      (if |recs| > 0 then Found else NoRecommendations, FormatNumbered(recs))
    case ModelEngine(engine) =>
      (Found, ModelRecommendations(engine, world.service, text))
  }

  /** The body of the loop for one row, given the stripped company and file
      cells. */
  function ProcessRow(strategy: Strategy, world: World, company: string, file: string): (r: Record)
    requires KeepsCutoff(world.score, world.matcher)
    ensures r.company == company && r.file == file
    ensures r.status == FolderNotFound <==> world.fs(CompanyFolder(company)).None?
    ensures r.status == FileNotFound <==>
              world.fs(CompanyFolder(company)).Some?
              && forall e :: e in world.fs(CompanyFolder(company)).value ==> world.score(WantedName(file), e) < Cutoff
    ensures r.status in {FolderNotFound, FileNotFound} ==> r.recommendations == NothingListed
    ensures r.status in {Found, NoRecommendations} ==>
              var res := Resolve(world.fs, world.score, world.matcher, company, file);
              res.Resolved? && (r.status, r.recommendations) == Analyse(strategy, world, ReadPdf(world.reader(res.path)))
  {
    match Resolve(world.fs, world.score, world.matcher, company, file)
    case FolderMissing => Record(company, file, FolderNotFound, NothingListed)
    case NoCloseMatch => Record(company, file, FileNotFound, NothingListed)
    case Resolved(path) =>
      var (status, recs) := Analyse(strategy, world, ReadPdf(world.reader(path)));
      Record(company, file, status, recs)
  }

  /** With a model engine, a report that was found is reported as found,
      whatever the engine answered or even when the engine failed. */
  lemma ModelStatusIgnoresAnswer(engine: Engine, world: World, company: string, file: string)
    requires KeepsCutoff(world.score, world.matcher)
    requires Resolve(world.fs, world.score, world.matcher, company, file).Resolved?
    ensures ProcessRow(ModelEngine(engine), world, company, file).status == Found
  {
  }

  /** With keyword markers, the status says "found" exactly when the list is
      not the placeholder. */
  lemma KeywordStatusMatchesList(markers: seq<string>, world: World, company: string, file: string)
    requires KeepsCutoff(world.score, world.matcher)
    ensures var r := ProcessRow(KeywordMarkers(markers), world, company, file);
      r.status == Found <==> r.recommendations != NothingListed
  {
  }

  /** A failed read is analysed like any other text: when the reader's message
      mentions a marker, the row is reported as found. */
  lemma ReadFailureCanLookFound(markers: seq<string>, world: World, company: string, file: string, path: string)
    requires KeepsCutoff(world.score, world.matcher)
    requires Resolve(world.fs, world.score, world.matcher, company, file) == Resolved(path)
    requires world.reader(path).Err?
    requires exists s :: s in Split(ReadPdf(world.reader(path))) && MentionsMarker(markers, s)
    ensures ProcessRow(KeywordMarkers(markers), world, company, file).status == Found
  {
  }

  // ---------------------------------------------------------------------------
  // All rows
  // ---------------------------------------------------------------------------

  /** `for _, row in df.iterrows()`: one record per row, in row order; no row
      stops the loop. */
  function Records(strategy: Strategy, world: World, rows: seq<Row>, companyCol: nat, fileCol: nat)
    : (rs: seq<Record>)
    requires KeepsCutoff(world.score, world.matcher)
    ensures |rs| == |rows|
    ensures forall i :: 0 <= i < |rows| ==>
              rs[i] == ProcessRow(strategy, world, CellString(rows[i], companyCol), CellString(rows[i], fileCol))
    decreases |rows|
  {
    if |rows| == 0 then []
    else
      [ProcessRow(strategy, world, CellString(rows[0], companyCol), CellString(rows[0], fileCol))]
      + Records(strategy, world, rows[1..], companyCol, fileCol)
  }

  /** Rows are handled independently: the records of two blocks of rows are
      the records of each block, one after the other. */
  lemma RecordsAppend(strategy: Strategy, world: World, a: seq<Row>, b: seq<Row>, companyCol: nat, fileCol: nat)
    requires KeepsCutoff(world.score, world.matcher)
    ensures Records(strategy, world, a + b, companyCol, fileCol)
            == Records(strategy, world, a, companyCol, fileCol) + Records(strategy, world, b, companyCol, fileCol)
  {
    var whole := Records(strategy, world, a + b, companyCol, fileCol);
    var left := Records(strategy, world, a, companyCol, fileCol);
    var right := Records(strategy, world, b, companyCol, fileCol);
    forall i | 0 <= i < |whole|
      ensures whole[i] == (left + right)[i]
    {
      if i < |a| {
        RecordsAppendLeft(strategy, world, a, b, companyCol, fileCol, i);
      } else {
        RecordsAppendRight(strategy, world, a, b, companyCol, fileCol, i - |a|);
      }
    }
  }

  lemma RecordsAppendLeft(strategy: Strategy, world: World, a: seq<Row>, b: seq<Row>, companyCol: nat, fileCol: nat, i: nat)
    requires KeepsCutoff(world.score, world.matcher)
    requires i < |a|
    ensures Records(strategy, world, a + b, companyCol, fileCol)[i] == Records(strategy, world, a, companyCol, fileCol)[i]
  {
    assert (a + b)[i] == a[i];
  }

  lemma RecordsAppendRight(strategy: Strategy, world: World, a: seq<Row>, b: seq<Row>, companyCol: nat, fileCol: nat, i: nat)
    requires KeepsCutoff(world.score, world.matcher)
    requires i < |b|
    ensures Records(strategy, world, a + b, companyCol, fileCol)[|a| + i] == Records(strategy, world, b, companyCol, fileCol)[i]
  {
    assert (a + b)[|a| + i] == b[i];
  }

  /** The service answers the chat engine's request for every text, and
      gives the local engine's request for the same text the same reply. */
  ghost predicate SameReplies(service: Service) {
    && (forall text :: service(RequestFor(HostedChat, text)).Ok?)
    && (forall text :: service(RequestFor(HostedChat, text)) == service(RequestFor(LocalLlama, text)))
  }

  /** The two engines differ only in the request they send: when the service
      gives both requests for a text the same successful reply, a row gets
      the same record under either engine. */
  lemma ModelRowsAgree(world: World, company: string, file: string)
    requires KeepsCutoff(world.score, world.matcher)
    requires SameReplies(world.service)
    ensures ProcessRow(ModelEngine(HostedChat), world, company, file)
            == ProcessRow(ModelEngine(LocalLlama), world, company, file)
  {
    var res := Resolve(world.fs, world.score, world.matcher, company, file);
    if res.Resolved? {
      var text := ReadPdf(world.reader(res.path));
      assert ModelRecommendations(HostedChat, world.service, text)
             == ModelRecommendations(LocalLlama, world.service, text);
    }
  }

  /** The same for every row of a table. */
  lemma {:induction false} ModelRecordsAgree(world: World, rows: seq<Row>, companyCol: nat, fileCol: nat)
    requires KeepsCutoff(world.score, world.matcher)
    requires SameReplies(world.service)
    ensures Records(ModelEngine(HostedChat), world, rows, companyCol, fileCol)
            == Records(ModelEngine(LocalLlama), world, rows, companyCol, fileCol)
    decreases |rows|
  {
    if |rows| > 0 {
      ModelRowsAgree(world, CellString(rows[0], companyCol), CellString(rows[0], fileCol));
      ModelRecordsAgree(world, rows[1..], companyCol, fileCol);
    }
  }

  /** The recommendations column of a list of records, in order. */
  function RecommendationTexts(rs: seq<Record>): (texts: seq<string>)
    ensures |texts| == |rs|
    ensures forall i :: 0 <= i < |rs| ==> texts[i] == rs[i].recommendations
  {
    seq(|rs|, i requires 0 <= i < |rs| => rs[i].recommendations)
  }
}

=== FILE: resolver.dfy ===
/** Finding a company's report on disk: the folder `pdfs/<company>/FINAL`, the
    wanted name `<file>.pdf`, and the closest entry of the folder by
    `difflib.get_close_matches(..., n=1, cutoff=0.7)`. The file system and the
    similarity score are outside the model: the folder listing, the score and
    the matcher are parameters, and the matcher is only known to keep the
    promise `get_close_matches` makes (the entry it picks is in the listing
    and scores at least the cutoff; it picks nothing exactly when no entry
    does). Which entry wins among several good ones is left open. */
module Resolver {
  import opened Wrappers
  import opened Text

  const PdfRoot: string := "pdfs"
  const FinalFolder: string := "FINAL"
  const PdfExtension: string := ".pdf"

  /** The `cutoff` passed to `get_close_matches`. */
  const Cutoff: real := 0.7

  /** `os.path.join(a, b)` on POSIX: a `b` starting with "/" replaces `a`;
      otherwise a "/" goes between them unless `a` is empty or already ends
      with one. */
  function PathJoin(a: string, b: string): (p: string)
    ensures |b| > 0 && b[0] == '/' ==> p == b
    ensures !(|b| > 0 && b[0] == '/') ==>
              && |p| == |a| + |b| + (if |a| == 0 || a[|a| - 1] == '/' then 0 else 1)
              && p[..|a|] == a && p[|p| - |b|..] == b
              && (|p| > |a| + |b| ==> p[|a|] == '/')
  {
    if |b| > 0 && b[0] == '/' then b
    else if |a| == 0 || a[|a| - 1] == '/' then
      ConcatParts(a, b);
      a + b
    else
      assert a + "/" + b == a + ("/" + b);
      ConcatParts(a, "/" + b);
      ConcatParts("/", b);
      a + "/" + b
  }

  /** `os.path.join("pdfs", empresa, "FINAL")`: always a folder named "FINAL"
      under something; under "pdfs/" unless the company cell is itself an
      absolute path. */
  function CompanyFolder(company: string): (folder: string)
    ensures EndsWith(folder, "/" + FinalFolder)
    ensures !(|company| > 0 && company[0] == '/') ==>
              |folder| > |PdfRoot| && folder[..|PdfRoot| + 1] == PdfRoot + "/"
  {
    var inner := PathJoin(PdfRoot, company);
    assert |inner| > 0;
    var folder := PathJoin(inner, FinalFolder);
    assert folder[|folder| - |FinalFolder|..] == FinalFolder;
    assert folder[|folder| - |FinalFolder| - 1] == '/';
    assert folder[|folder| - |FinalFolder| - 1..] == "/" + FinalFolder;
    if |company| > 0 && company[0] == '/' then folder
    else
      assert inner[..|PdfRoot|] == PdfRoot && inner[|PdfRoot|] == '/';
      assert folder[..|inner|] == inner;
      assert folder[..|PdfRoot| + 1] == inner[..|PdfRoot| + 1];
      folder
  }

  /** For an ordinary company name (not empty, no "/") the folder is
      `pdfs/<company>/FINAL`. */
  lemma CompanyFolderShape(company: string)
    requires |company| > 0 && '/' !in company
    ensures CompanyFolder(company) == PdfRoot + "/" + company + "/" + FinalFolder
  {
    assert company[|company| - 1] in company;
    var inner := PdfRoot + "/" + company;
    assert inner[|inner| - 1] == company[|company| - 1];
  }

  /** A company cell that starts with "/" names a folder outside `pdfs`. */
  lemma AbsoluteCompanyEscapesRoot(company: string)
    requires |company| > 0 && company[0] == '/' && company[|company| - 1] != '/'
    ensures CompanyFolder(company) == company + "/" + FinalFolder
  {
  }

  /** `f"{nome_arquivo}.pdf"`. */
  function WantedName(file: string): (w: string)
    ensures |w| == |file| + |PdfExtension| && EndsWith(w, PdfExtension) && w[..|file|] == file
  {
    ConcatParts(file, PdfExtension);
    file + PdfExtension
  }

  /** The file system as the loop sees it: the entries of a folder, or nothing
      when the path does not exist. */
  type FileSystem = string -> Option<seq<string>>

  /** A similarity score between a wanted name and an entry. */
  type Score = (string, string) -> real

  /** `get_close_matches(wanted, entries, n=1, cutoff=0.7)`, as its first
      element when there is one. */
  type Matcher = (string, seq<string>) -> Option<string>

  /** What `get_close_matches` promises about the entry it returns. */
  ghost predicate KeepsCutoff(score: Score, matcher: Matcher) {
    forall wanted, entries ::
      && (matcher(wanted, entries).Some? ==>
            matcher(wanted, entries).value in entries
            && score(wanted, matcher(wanted, entries).value) >= Cutoff)
      && (matcher(wanted, entries).None? ==>
            forall e :: e in entries ==> score(wanted, e) < Cutoff)
  }

  /** Where the loop ends up for one row. */
  datatype Resolution = FolderMissing | NoCloseMatch | Resolved(path: string)

  /** The folder test and the fuzzy match of one row (the branches on
      `os.path.exists(pasta_final)` and `if match`). */
  function Resolve(fs: FileSystem, score: Score, matcher: Matcher, company: string, file: string)
    : (r: Resolution)
    requires KeepsCutoff(score, matcher)
    ensures r.FolderMissing? <==> fs(CompanyFolder(company)).None?
    ensures r.NoCloseMatch? ==>
              forall e :: e in fs(CompanyFolder(company)).value ==> score(WantedName(file), e) < Cutoff
    ensures r.Resolved? ==>
              exists e :: e in fs(CompanyFolder(company)).value
                          && score(WantedName(file), e) >= Cutoff
                          && r.path == PathJoin(CompanyFolder(company), e)
    ensures fs(CompanyFolder(company)).Some?
            && (exists e :: e in fs(CompanyFolder(company)).value && score(WantedName(file), e) >= Cutoff)
            ==> r.Resolved?
  {
    var folder := CompanyFolder(company);
    match fs(folder)
    case None => FolderMissing
    case Some(entries) =>
      match matcher(WantedName(file), entries)
      case None => NoCloseMatch
      case Some(e) => Resolved(PathJoin(folder, e))
  }

  /** A folder that exists but is empty yields no match, not a missing
      folder. */
  lemma EmptyFolderHasNoMatch(fs: FileSystem, score: Score, matcher: Matcher, company: string, file: string)
    requires KeepsCutoff(score, matcher)
    requires fs(CompanyFolder(company)) == Some([])
    ensures Resolve(fs, score, matcher, company, file) == NoCloseMatch
  {
  }
}

=== FILE: segmenter.dfy ===
/** Sentence segmentation as the keyword extractors perform it:
    `re.split(r'[\.\!?]\s+', texto)`. The regular expression is scanned left to
    right; a match is a terminator (`.`, `!` or `?`) followed by the longest
    non-empty run of white space, and the text between matches is kept. */
module Segmenter {
  import opened Text

  predicate IsTerminator(c: char) {
    c == '.' || c == '!' || c == '?'
  }

  /** A match of the pattern can start at position `i` of `t`. */
  predicate BoundaryAt(t: string, i: int) {
    0 <= i && i + 1 < |t| && IsTerminator(t[i]) && IsSpace(t[i + 1])
  }

  /** Some terminator in `s` is directly followed by white space. */
  ghost predicate HasBoundary(s: string) {
    exists i :: BoundaryAt(s, i)
  }

  /** A separator as the pattern consumes it: a terminator, then white space only. */
  predicate IsSeparator(d: string) {
    |d| >= 2 && IsTerminator(d[0]) && forall k :: 1 <= k < |d| ==> IsSpace(d[k])
  }

  /** The leftmost position at or after `i` where a match starts, or `|t|`. */
  function FirstBoundary(t: string, i: nat): (p: nat)
    requires i <= |t|
    ensures i <= p <= |t|
    ensures p < |t| ==> BoundaryAt(t, p)
    ensures forall k :: i <= k < p ==> !BoundaryAt(t, k)
    decreases |t| - i
  {
    if i == |t| then |t|
    else if BoundaryAt(t, i) then i
    else FirstBoundary(t, i + 1)
  }

  /** The pieces `re.split` returns, together with the separators it consumed. */
  datatype Segmentation = Segmentation(segments: seq<string>, separators: seq<string>)

  /** `segments[0] + separators[0] + segments[1] + ... + segments[n]`. */
  function Rejoin(segments: seq<string>, separators: seq<string>): string
    requires |segments| == |separators| + 1
    decreases |separators|
  {
    if |separators| == 0 then segments[0]
    else segments[0] + separators[0] + Rejoin(segments[1..], separators[1..])
  }

  /** What a segmentation of `t` must satisfy: the pieces and separators
      rebuild `t`; every separator is a terminator plus white space; no piece
      contains a match; and the piece after a separator does not begin with
      white space, so that each separator took the whole run. */
  ghost predicate IsSegmentationOf(t: string, g: Segmentation) {
    && |g.segments| == |g.separators| + 1
    && Rejoin(g.segments, g.separators) == t
    && (forall i :: 0 <= i < |g.separators| ==> IsSeparator(g.separators[i]))
    && (forall i :: 0 <= i < |g.segments| ==> !HasBoundary(g.segments[i]))
    && (forall i :: 1 <= i < |g.segments| ==> g.segments[i] == [] || !IsSpace(g.segments[i][0]))
  }

  /** A match inside a slice of `t` is a match of `t`. */
  lemma BoundaryInSlice(t: string, a: nat, b: nat, k: int)
    requires a <= b <= |t|
    ensures BoundaryAt(t[a..b], k) ==> BoundaryAt(t, a + k)
  {
  }

  /** `re.split(r'[\.\!?]\s+', t)`, with the consumed separators. */
  function Segment(t: string): (g: Segmentation)
    ensures IsSegmentationOf(t, g)
    decreases |t|
  {
    var p := FirstBoundary(t, 0);
    if p == |t| then
      NoBoundaryIsOneSegment(t);
      Segmentation([t], [])
    else
      var q := SpaceEnd(t, p + 1);
      var rest := Segment(t[q..]);
      var g := Segmentation([t[..p]] + rest.segments, [t[p..q]] + rest.separators);
      SegmentStep(t, p, q, rest, g);
      g
  }

  lemma NoBoundaryIsOneSegment(t: string)
    requires FirstBoundary(t, 0) == |t|
    ensures IsSegmentationOf(t, Segmentation([t], []))
  {
    assert !HasBoundary(t);
  }

  lemma SegmentStep(t: string, p: nat, q: nat, rest: Segmentation, g: Segmentation)
    requires p < |t| && p == FirstBoundary(t, 0)
    requires q == SpaceEnd(t, p + 1)
    requires IsSegmentationOf(t[q..], rest)
    requires g == Segmentation([t[..p]] + rest.segments, [t[p..q]] + rest.separators)
    ensures IsSegmentationOf(t, g)
  {
    assert BoundaryAt(t, p);
    assert q <= |t|;
    // the separator
    assert IsSeparator(t[p..q]);
    // the first piece holds no match
    forall k
      ensures !BoundaryAt(t[..p], k)
    {
      BoundaryInSlice(t, 0, p, k);
    }
    assert !HasBoundary(t[..p]);
    // later pieces
    assert g.segments[1..] == rest.segments;
    assert g.separators[1..] == rest.separators;
    assert forall i :: 1 <= i < |g.segments| ==> g.segments[i] == rest.segments[i - 1];
    assert forall i :: 1 <= i < |g.separators| ==> g.separators[i] == rest.separators[i - 1];
    // the piece after the separator does not start with white space
    RejoinStart(rest.segments, rest.separators);
    assert q == |t| || !IsSpace(t[q]);
    assert t[q..] == [] || t[q..][0] == t[q];
    // rebuilding
    assert Rejoin(g.segments, g.separators) == t[..p] + t[p..q] + t[q..];
    assert t[..p] + t[p..q] + t[q..] == t;
  }

  /** The first character of a rebuilt text is that of its first piece, or, when
      that piece is empty, that of the first separator. */
  lemma RejoinStart(segments: seq<string>, separators: seq<string>)
    requires |segments| == |separators| + 1
    requires forall i :: 0 <= i < |separators| ==> IsSeparator(separators[i])
    ensures var t := Rejoin(segments, separators);
      (|segments[0]| > 0 ==> |t| > 0 && t[0] == segments[0][0])
      && (|segments[0]| == 0 && |separators| > 0 ==> |t| > 0 && IsTerminator(t[0]))
      && (|segments[0]| == 0 && |separators| == 0 ==> t == [])
  {
  }

  /** The pieces `re.split` returns: at least one, and the text itself, whole,
      exactly when it holds no match. */
  function Split(t: string): (pieces: seq<string>)
    ensures |pieces| > 0
    ensures pieces == [t] <==> !HasBoundary(t)
  {
    var g := Segment(t);
    if FirstBoundary(t, 0) == |t| then
      g.segments
    else
      assert BoundaryAt(t, FirstBoundary(t, 0));
      g.segments
  }

  /** The segmentation is the only one: any decomposition of `t` that meets
      `IsSegmentationOf` is the one `Segment` computes. */
  lemma {:induction false} SegmentUnique(t: string, g: Segmentation)
    requires IsSegmentationOf(t, g)
    ensures g == Segment(t)
    decreases |g.separators|
  {
    if |g.separators| == 0 {
      assert t == g.segments[0];
      assert !HasBoundary(t);
      assert FirstBoundary(t, 0) == |t|;
    } else {
      var s0, d0 := g.segments[0], g.separators[0];
      var g' := Segmentation(g.segments[1..], g.separators[1..]);
      var rest := Rejoin(g'.segments, g'.separators);
      TailIsSegmentation(t, g);
      assert t == s0 + d0 + rest;
      var p, q := |s0|, |s0| + |d0|;
      FirstBoundaryAtSeparator(s0, d0, rest);
      SpaceEndOfSeparator(s0, d0, rest);
      assert t[..p] == s0 && t[p..q] == d0 && t[q..] == rest;
      SegmentUnique(rest, g');
    }
  }

  /** Dropping the first piece and separator leaves a segmentation of the rest,
      and the rest does not begin with white space. */
  lemma TailIsSegmentation(t: string, g: Segmentation)
    requires IsSegmentationOf(t, g) && |g.separators| > 0
    ensures var g' := Segmentation(g.segments[1..], g.separators[1..]);
      var rest := Rejoin(g'.segments, g'.separators);
      && IsSegmentationOf(rest, g')
      && t == g.segments[0] + g.separators[0] + rest
      && IsSeparator(g.separators[0])
      && !HasBoundary(g.segments[0])
      && (rest == [] || !IsSpace(rest[0]))
  {
    var g' := Segmentation(g.segments[1..], g.separators[1..]);
    assert forall i :: 0 <= i < |g'.segments| ==> g'.segments[i] == g.segments[i + 1];
    assert forall i :: 0 <= i < |g'.separators| ==> g'.separators[i] == g.separators[i + 1];
    RejoinStart(g'.segments, g'.separators);
    assert g'.segments[0] == g.segments[1];
  }

  /** In `s0 + d0 + rest`, the first match starts where the separator does. */
  lemma FirstBoundaryAtSeparator(s0: string, d0: string, rest: string)
    requires IsSeparator(d0) && !HasBoundary(s0)
    ensures FirstBoundary(s0 + d0 + rest, 0) == |s0|
  {
    var t := s0 + d0 + rest;
    var p := |s0|;
    assert t[p] == d0[0] && t[p + 1] == d0[1];
    assert BoundaryAt(t, p);
    forall k | 0 <= k < p
      ensures !BoundaryAt(t, k)
    {
      assert t[k] == s0[k];
      if k + 1 < p {
        assert t[k + 1] == s0[k + 1];
        assert !BoundaryAt(s0, k);
      } else {
        assert t[k + 1] == d0[0];
      }
    }
  }

  /** The white-space run after the terminator ends where the separator does. */
  lemma SpaceEndOfSeparator(s0: string, d0: string, rest: string)
    requires IsSeparator(d0) && (rest == [] || !IsSpace(rest[0]))
    ensures SpaceEnd(s0 + d0 + rest, |s0| + 1) == |s0| + |d0|
  {
    var t := s0 + d0 + rest;
    var p, q := |s0|, |s0| + |d0|;
    forall k | p + 1 <= k < q
      ensures IsSpace(t[k])
    {
      assert t[k] == d0[k - p];
    }
    assert q == |t| || t[q] == rest[0];
    SpaceEndIs(t, p + 1, q);
  }
}

=== FILE: seqs.dfy ===
/** Order-preserving selection from a sequence: the subsequence relation the
    recommendation filter is stated with, and the list comprehension that
    keeps the PDF blob names. */
module Seqs {

  /** `a` is what is left of `b` after deleting some of its elements. */
  predicate IsSubsequence<T(==)>(a: seq<T>, b: seq<T>)
    decreases |b|
  {
    |a| == 0
    || (|b| > 0 && ((a[0] == b[0] && IsSubsequence(a[1..], b[1..])) || IsSubsequence(a, b[1..])))
  }

  /** A Python list comprehension `[x for x in s if keep(x)]`: the elements of
      `s` that pass `keep`, each as often as in `s`, in the order of `s`. */
  function Filter<T(==, !new)>(keep: T -> bool, s: seq<T>): (r: seq<T>)
    ensures IsSubsequence(r, s)
    ensures forall x :: x in r <==> x in s && keep(x)
    ensures forall x :: multiset(r)[x] == if keep(x) then multiset(s)[x] else 0
    decreases |s|
  {
    if |s| == 0 then []
    else
      var rest := Filter(keep, s[1..]);
      assert s == [s[0]] + s[1..];
      if keep(s[0]) then [s[0]] + rest else rest
  }
}

=== FILE: sheet.dfy ===
/** The spreadsheet side of the analysers: a sheet read without a header,
    the scan that finds the header row, the cell values the loops read, and,
    for appv1.py, the sorted list of companies, the rows of one company and
    the extra column written back on export. Reading and writing the Excel
    file is outside the model; a sheet is its rows of cells. */
module Sheet {
  import opened Wrappers
  import opened Text

  /** One cell as `astype(str)` and `str()` see it: empty (pandas' NaN) or a
      value already rendered as text. */
  datatype Cell = Blank | Value(text: string)

  /** `str(cell)`: an empty cell reads as "nan". */
  function CellText(c: Cell): string {
    match c
    case Blank => "nan"
    case Value(t) => t
  }

  type Row = seq<Cell>

  /** The cell in column `j`; pandas pads short rows with empty cells. */
  function CellAt(row: Row, j: nat): (c: Cell)
    ensures j >= |row| ==> c == Blank
    ensures j < |row| ==> c == row[j]
  {
    if j < |row| then row[j] else Blank
  }

  /** The column labels: the positions 0, 1, ... while no header row was found,
      or the stripped texts of the header row. */
  datatype Columns = Positional | Named(names: seq<string>)

  /** A sheet after the header scan: its labels and its data rows. */
  datatype Table = Table(columns: Columns, rows: seq<Row>)

  // ---------------------------------------------------------------------------
  // Header scan
  // ---------------------------------------------------------------------------

  const HeaderMarker: string := "Empresa"

  /** How many leading rows the scan looks at. */
  const ScanDepth: nat := 10

  /** `df.iloc[i].astype(str).str.contains("Empresa").any()`. */
  predicate IsHeaderRow(row: Row) {
    exists j :: 0 <= j < |row| && Contains(CellText(row[j]), HeaderMarker)
  }

  /** The scan reads `df.iloc[i]` for `i` up to the header row, or for all of
      the first `ScanDepth` rows when there is none; every row it reads must
      exist, so either the sheet has `ScanDepth` rows or a header row comes
      first. */
  predicate ScanStaysInside(rows: seq<Row>) {
    |rows| >= ScanDepth || exists i :: 0 <= i < |rows| && IsHeaderRow(rows[i])
  }

  /** The scan from row `i` on. */
  function FindHeaderFrom(rows: seq<Row>, i: nat): (r: Option<nat>)
    requires i <= ScanDepth
    requires |rows| >= ScanDepth || exists k :: i <= k < |rows| && IsHeaderRow(rows[k])
    ensures r.Some? ==> i <= r.value < ScanDepth && r.value < |rows| && IsHeaderRow(rows[r.value])
    ensures r.Some? ==> forall k :: i <= k < r.value ==> !IsHeaderRow(rows[k])
    ensures r.None? ==> |rows| >= ScanDepth && forall k :: i <= k < ScanDepth ==> !IsHeaderRow(rows[k])
    decreases ScanDepth - i
  {
    if i == ScanDepth then
      None
    else if i < |rows| && IsHeaderRow(rows[i]) then
      Some(i)
    else
      FindHeaderFrom(rows, i + 1)
  }

  /** The row the header scan stops at, if any. */
  function HeaderIndex(rows: seq<Row>): (r: Option<nat>)
    requires ScanStaysInside(rows)
    ensures r.Some? ==> r.value < ScanDepth && r.value < |rows| && IsHeaderRow(rows[r.value])
    ensures r.Some? ==> forall k :: 0 <= k < r.value ==> !IsHeaderRow(rows[k])
    ensures r.None? ==> |rows| >= ScanDepth && forall k :: 0 <= k < ScanDepth ==> !IsHeaderRow(rows[k])
  {
    FindHeaderFrom(rows, 0)
  }

  /** The scan's answer is fixed by the two facts it promises: row `i` is the
      first of the first `ScanDepth` rows that mentions the marker. */
  lemma HeaderIndexIs(rows: seq<Row>, i: nat)
    requires i < ScanDepth && i < |rows| && IsHeaderRow(rows[i])
    requires forall k :: 0 <= k < i ==> !IsHeaderRow(rows[k])
    ensures ScanStaysInside(rows)
    ensures HeaderIndex(rows) == Some(i)
  {
  }

  /** How many columns `read_excel` gives the sheet: as many as its widest
      row has cells. */
  function Width(rows: seq<Row>): (w: nat)
    ensures forall k :: 0 <= k < |rows| ==> |rows[k]| <= w
    ensures |rows| == 0 ==> w == 0
    ensures |rows| > 0 ==> exists k :: 0 <= k < |rows| && |rows[k]| == w
    decreases |rows|
  {
    if |rows| == 0 then 0
    else
      var front := rows[..|rows| - 1];
      var rest := Width(front);
      assert forall k :: 0 <= k < |front| ==> front[k] == rows[k];
      if |rows[|rows| - 1]| > rest then |rows[|rows| - 1]| else rest
  }

  /** `df.iloc[i].astype(str).str.strip()`: the labels a header row supplies,
      one for each of the `width` columns of the sheet; a column the header
      row leaves empty is labelled "nan". */
  function HeaderNames(row: Row, width: nat): (names: seq<string>)
    ensures |names| == width
    ensures forall j :: 0 <= j < width ==> names[j] == Strip(CellText(CellAt(row, j)))
  {
    seq(width, j requires 0 <= j < width => Strip(CellText(CellAt(row, j))))
  }

  /** Every data row fits under the labels: no cell sits in a column without
      one. */
  predicate LabelsCover(t: Table) {
    t.columns.Named? ==> forall k :: 0 <= k < |t.rows| ==> |t.rows[k]| <= |t.columns.names|
  }

  /** The header scan and its effect: with a header row at `i`, its stripped
      texts become the labels of every column of the sheet and only the rows
      after it remain; without one the sheet is left as it is, labelled by
      position. */
  function DetectHeader(rows: seq<Row>): (t: Table)
    requires ScanStaysInside(rows)
    ensures t.columns.Named? <==> HeaderIndex(rows).Some?
    ensures t.columns.Named? ==>
              var i := HeaderIndex(rows).value;
              t.columns.names == HeaderNames(rows[i], Width(rows)) && t.rows == rows[i + 1..]
    ensures t.columns.Positional? ==> t.rows == rows
    ensures LabelsCover(t)
  {
    match HeaderIndex(rows)
    case Some(i) =>
      var t := Table(Named(HeaderNames(rows[i], Width(rows))), rows[i + 1..]);
      assert forall k :: 0 <= k < |t.rows| ==> t.rows[k] == rows[i + 1 + k];
      t
    case None => Table(Positional, rows)
  }

  /** A column past the end of the header row, which some other row fills,
      is labelled "nan", as `str()` renders the empty header cell. */
  lemma ColumnsPastHeaderReadNan(rows: seq<Row>, j: nat, k: nat)
    requires ScanStaysInside(rows) && HeaderIndex(rows).Some?
    requires k < |rows| && |rows[HeaderIndex(rows).value]| <= j < |rows[k]|
    ensures var t := DetectHeader(rows);
      j < |t.columns.names| && t.columns.names[j] == "nan"
  {
    var nan := "nan";
    assert nan == "" + nan + "";
    StripUnique(nan, "", nan, "");
  }

  /** The rows a scan over the detected table sees are never the header row
      itself, nor any row above it. */
  lemma DetectHeaderDropsAbove(rows: seq<Row>)
    requires ScanStaysInside(rows)
    ensures var t := DetectHeader(rows);
      |t.rows| <= |rows| && t.rows == rows[|rows| - |t.rows|..]
  {
  }

  // ---------------------------------------------------------------------------
  // Columns by heading
  // ---------------------------------------------------------------------------

  /** Why a heading lookup `df[heading]` fails: no such heading, or several columns
      carry it (pandas then hands back a table where a column is expected). */
  datatype LookupError = MissingColumn(heading: string) | DuplicateColumn(heading: string)

  /** The positions of `columns` labelled `heading`, in order. */
  function PositionsOf(names: seq<string>, heading: string): (ps: seq<nat>)
    ensures forall k :: 0 <= k < |ps| ==> ps[k] < |names| && names[ps[k]] == heading
    ensures forall j :: 0 <= j < |names| && names[j] == heading ==> j in ps
    ensures forall a, b :: 0 <= a < b < |ps| ==> ps[a] < ps[b]
    decreases |names|
  {
    if |names| == 0 then []
    else
      var rest := PositionsOf(names[..|names| - 1], heading);
      if names[|names| - 1] == heading then rest + [|names| - 1] else rest
  }

  /** `df[heading]` as a single column: the one position carrying `heading`. */
  function ColumnIndex(columns: Columns, heading: string): (r: Result<nat, LookupError>)
    ensures r.Ok? ==> columns.Named? && r.value < |columns.names| && columns.names[r.value] == heading
    ensures r.Ok? ==> forall j :: 0 <= j < |columns.names| && j != r.value ==> columns.names[j] != heading
    ensures r == Err(MissingColumn(heading)) <==>
              columns.Positional? || forall j :: 0 <= j < |columns.names| ==> columns.names[j] != heading
  {
    match columns
    case Positional => Err(MissingColumn(heading))
    case Named(names) =>
      var ps := PositionsOf(names, heading);
      if |ps| == 0 then
        Err(MissingColumn(heading))
      else if |ps| == 1 then
        Ok(ps[0])
      else
        assert ps[0] < ps[1];
        Err(DuplicateColumn(heading))
  }

  /** `str(row[col]).strip()`: what a loop reads from a cell. The result is
      the cell's text with only white space cut from either end, which by
      `StripUnique` is exactly what `strip()` leaves. */
  function CellString(row: Row, j: nat): (s: string)
    ensures IsTrimmed(s)
    ensures exists i :: SpaceFramed(CellText(CellAt(row, j)), i, s)
    ensures j >= |row| ==> s == "nan"
  {
    StripFramed(CellText(CellAt(row, j)));
    var nan := "nan";
    assert nan == "" + nan + "";
    StripUnique(nan, "", nan, "");
    Strip(CellText(CellAt(row, j)))
  }

  // ---------------------------------------------------------------------------
  // Python's ordering of strings
  // ---------------------------------------------------------------------------

  /** `a < b` on Python strings: code point by code point, a proper prefix
      first. */
  predicate Less(a: string, b: string)
    decreases |a|
  {
    |b| > 0 && (|a| == 0 || a[0] < b[0] || (a[0] == b[0] && Less(a[1..], b[1..])))
  }

  lemma {:induction false} LessIrreflexive(a: string)
    ensures !Less(a, a)
    decreases |a|
  {
    if |a| > 0 {
      LessIrreflexive(a[1..]);
    }
  }

  lemma {:induction false} LessTransitive(a: string, b: string, c: string)
    requires Less(a, b) && Less(b, c)
    ensures Less(a, c)
    decreases |a|
  {
    if |a| > 0 && a[0] == b[0] && b[0] == c[0] {
      LessTransitive(a[1..], b[1..], c[1..]);
    }
  }

  lemma {:induction false} LessTotal(a: string, b: string)
    ensures a == b || Less(a, b) || Less(b, a)
    decreases |a|
  {
    if |a| > 0 && |b| > 0 && a[0] == b[0] {
      LessTotal(a[1..], b[1..]);
      if a[1..] == b[1..] {
        assert a == [a[0]] + a[1..] && b == [b[0]] + b[1..];
      }
    }
  }

  lemma {:induction false} LessAsymmetric(a: string, b: string)
    requires Less(a, b)
    ensures !Less(b, a)
    decreases |a|
  {
    if |a| > 0 && a[0] == b[0] {
      LessAsymmetric(a[1..], b[1..]);
    }
  }

  /** Ascending without repetition. */
  predicate StrictlySorted(s: seq<string>) {
    forall i, j :: 0 <= i < j < |s| ==> Less(s[i], s[j])
  }

  /** A strictly sorted sequence holds no value twice. */
  lemma StrictlySortedDistinct(s: seq<string>, i: nat, j: nat)
    requires StrictlySorted(s) && i < j < |s|
    ensures s[i] != s[j]
  {
    LessIrreflexive(s[i]);
  }

  /** Add `x` to a strictly sorted sequence, keeping it strictly sorted. */
  function Insert(x: string, s: seq<string>): (r: seq<string>)
    requires StrictlySorted(s)
    ensures StrictlySorted(r)
    ensures forall y :: y in r <==> y == x || y in s
    decreases |s|
  {
    if |s| == 0 then [x]
    else if x == s[0] then s
    else if Less(x, s[0]) then
      forall j | 0 < j < |s|
        ensures Less(x, s[j])
      {
        LessTransitive(x, s[0], s[j]);
      }
      [x] + s
    else
      LessTotal(x, s[0]);
      var rest := Insert(x, s[1..]);
      assert forall y :: y in s <==> y == s[0] || y in s[1..];
      assert forall k :: 0 <= k < |rest| ==> rest[k] == x || rest[k] in s[1..];
      [s[0]] + rest
  }

  /** A sequence with the same members as an empty one is empty. */
  lemma EmptyLikeEmpty(a: seq<string>, b: seq<string>)
    requires forall x :: x in a <==> x in b
    ensures |a| == 0 ==> |b| == 0
  {
    if |b| > 0 {
      assert b[0] in b;
    }
  }

  /** Two strictly sorted sequences with the same values are the same
      sequence: `sorted(set(...))` has only one possible result. */
  lemma {:induction false} SortedUnique(a: seq<string>, b: seq<string>)
    requires StrictlySorted(a) && StrictlySorted(b)
    requires forall x :: x in a <==> x in b
    ensures a == b
    decreases |a|
  {
    if |a| == 0 {
      EmptyLikeEmpty(a, b);
    } else {
      assert a[0] in b && b[0] in a;
      var i :| 0 <= i < |b| && b[i] == a[0];
      var j :| 0 <= j < |a| && a[j] == b[0];
      if i > 0 && j > 0 {
        LessAsymmetric(b[0], a[0]);
      }
      assert a[0] == b[0];
      forall x
        ensures x in a[1..] <==> x in b[1..]
      {
        if x in a[1..] {
          var k :| 1 <= k < |a| && a[k] == x;
          StrictlySortedDistinct(a, 0, k);
        }
        if x in b[1..] {
          var k :| 1 <= k < |b| && b[k] == x;
          StrictlySortedDistinct(b, 0, k);
        }
        assert x in a <==> x == a[0] || x in a[1..];
        assert x in b <==> x == b[0] || x in b[1..];
      }
      SortedUnique(a[1..], b[1..]);
      assert a == [a[0]] + a[1..] && b == [b[0]] + b[1..];
    }
  }

  // ---------------------------------------------------------------------------
  // One company's rows
  // ---------------------------------------------------------------------------

  /** `sorted(df[col].dropna().astype(str).unique())`: every non-empty value of
      column `j`, once each, ascending. The texts are not stripped. */
  function DistinctValues(rows: seq<Row>, j: nat): (r: seq<string>)
    ensures StrictlySorted(r)
    ensures forall x :: x in r <==> exists i :: 0 <= i < |rows| && CellAt(rows[i], j) == Value(x)
    decreases |rows|
  {
    if |rows| == 0 then []
    else
      var front := rows[..|rows| - 1];
      var rest := DistinctValues(front, j);
      assert forall i :: 0 <= i < |front| ==> front[i] == rows[i];
      match CellAt(rows[|rows| - 1], j)
      case Blank => rest
      case Value(t) => Insert(t, rest)
  }

  /** `df[df[col].astype(str) == selected].index`: the positions of the rows
      whose cell in column `j` reads as `selected`, in row order. No selection
      compares equal to nothing. */
  function MatchingRows(rows: seq<Row>, j: nat, selected: Option<string>): (ix: seq<nat>)
    ensures forall a, b :: 0 <= a < b < |ix| ==> ix[a] < ix[b]
    ensures forall k :: 0 <= k < |ix| ==> ix[k] < |rows|
    ensures forall i :: 0 <= i < |rows| ==>
              (i in ix <==> selected.Some? && CellText(CellAt(rows[i], j)) == selected.value)
    decreases |rows|
  {
    if |rows| == 0 then []
    else
      var front := rows[..|rows| - 1];
      var rest := MatchingRows(front, j, selected);
      assert forall i :: 0 <= i < |front| ==> front[i] == rows[i];
      var last := |rows| - 1;
      if selected.Some? && CellText(CellAt(rows[last], j)) == selected.value then rest + [last]
      else rest
  }

  /** Choosing a company from the list always selects at least one row, so the
      result table has a record to show. */
  lemma ChosenCompanyHasRows(rows: seq<Row>, j: nat, selected: string)
    requires selected in DistinctValues(rows, j)
    ensures |MatchingRows(rows, j, Some(selected))| > 0
  {
    var i :| 0 <= i < |rows| && CellAt(rows[i], j) == Value(selected);
    assert i in MatchingRows(rows, j, Some(selected));
  }

  /** A selection that reads "nan" picks the rows whose cell is empty:
      `astype(str)` renders an empty cell as "nan". */
  lemma BlankMatchesNan(rows: seq<Row>, j: nat, i: nat)
    requires i < |rows| && CellAt(rows[i], j) == Blank
    ensures i in MatchingRows(rows, j, Some("nan"))
  {
  }

  // ---------------------------------------------------------------------------
  // Writing a column back
  // ---------------------------------------------------------------------------

  /** The value each row gets in the new column: the text paired with its
      position in `ix`, or "" for rows not listed. */
  function Scatter(n: nat, ix: seq<nat>, texts: seq<string>): (col: seq<string>)
    requires |ix| == |texts|
    requires forall a, b :: 0 <= a < b < |ix| ==> ix[a] < ix[b]
    requires forall k :: 0 <= k < |ix| ==> ix[k] < n
    ensures |col| == n
    ensures forall k :: 0 <= k < |ix| ==> col[ix[k]] == texts[k]
    ensures forall i :: 0 <= i < n && i !in ix ==> col[i] == ""
    decreases |ix|
  {
    if |ix| == 0 then seq(n, _ => "")
    else
      var rest := Scatter(n, ix[1..], texts[1..]);
      assert forall k :: 1 <= k < |ix| ==> ix[k] == ix[1..][k - 1] && ix[0] != ix[k];
      rest[ix[0] := texts[0]]
  }

  /** `df[heading] = values`: replace the column carrying `heading`, or add it on
      the right when no column carries it; every other cell keeps its value. */
  function SetColumn(names: seq<string>, rows: seq<Row>, heading: string, values: seq<string>): (t: Table)
    requires |values| == |rows|
    ensures t.columns.Named? && |t.rows| == |rows|
    ensures var p := if heading in names then FirstPosition(names, heading) else |names|;
      && t.columns.names == (if heading in names then names else names + [heading])
      && (forall i :: 0 <= i < |rows| ==> CellAt(t.rows[i], p) == Value(values[i]))
      && (forall i, j :: 0 <= i < |rows| && j != p ==> CellAt(t.rows[i], j) == CellAt(rows[i], j))
  {
    var p := if heading in names then FirstPosition(names, heading) else |names|;
    Table(if heading in names then Named(names) else Named(names + [heading]),
          seq(|rows|, i requires 0 <= i < |rows| => Place(rows[i], p, Value(values[i]))))
  }

  /** The first position carrying `heading`. */
  function FirstPosition(names: seq<string>, heading: string): (p: nat)
    requires heading in names
    ensures p < |names| && names[p] == heading
    ensures forall k :: 0 <= k < p ==> names[k] != heading
  {
    if names[0] == heading then 0 else 1 + FirstPosition(names[1..], heading)
  }

  /** Row `row` with cell `p` set to `c`, padded with empty cells when short. */
  function Place(row: Row, p: nat, c: Cell): (r: Row)
    ensures CellAt(r, p) == c
    ensures forall j :: j != p ==> CellAt(r, j) == CellAt(row, j)
  {
    var wide := if |row| > p then row else row + seq(p + 1 - |row|, _ => Blank);
    wide[p := c]
  }
}

=== FILE: text.dfy ===
/** Character classes and string operations the analyser borrows from Python's
    `str` type: `isspace`, `lower`, the `in` substring test, `strip`, `endswith`,
    `sep.join` and decimal formatting of integers, together with a splitter on
    one character that reads a joined text back. */
module Text {
  import opened Wrappers

  // ---------------------------------------------------------------------------
  // Character classes
  // ---------------------------------------------------------------------------

  /** The characters for which Python's `str.isspace()` holds. A `\s` in a `str`
      regular expression and `str.strip()` with no argument both use this set. */
  predicate IsSpace(c: char) {
    var n := c as int;
    (0x09 <= n <= 0x0D) || (0x1C <= n <= 0x20) || n == 0x85 || n == 0xA0
    || n == 0x1680 || (0x2000 <= n <= 0x200A) || n == 0x2028 || n == 0x2029
    || n == 0x202F || n == 0x205F || n == 0x3000
  }

  predicate IsDigit(c: char) {
    0x30 <= c as int <= 0x39
  }

  /** Python's lower-casing of one character, exact for ASCII and Latin-1
      (upper-case letters `A`-`Z` and `À`-`Þ` except `×`); every other character
      is left as it is. */
  function Lower(c: char): char {
    if ('A' <= c <= 'Z') || ('\U{C0}' <= c <= '\U{DE}' && c != '\U{D7}') then
      (c as int + 32) as char
    else
      c
  }

  /** `s.lower()`, character by character. */
  function LowerStr(s: string): (r: string)
    ensures |r| == |s|
    ensures forall k :: 0 <= k < |s| ==> r[k] == Lower(s[k])
  {
    if |s| == 0 then [] else [Lower(s[0])] + LowerStr(s[1..])
  }

  // ---------------------------------------------------------------------------
  // Substrings
  // ---------------------------------------------------------------------------

  /** `sub` occurs in `s` starting at position `k`. */
  predicate OccursAt(s: string, sub: string, k: int) {
    0 <= k && k + |sub| <= |s| && s[k..k + |sub|] == sub
  }

  /** Python's `sub in s`. */
  predicate Contains(s: string, sub: string)
    decreases |s|
  {
    |sub| <= |s| && (s[..|sub|] == sub || Contains(s[1..], sub))
  }

  /** `Contains` holds exactly when `sub` occurs at some position of `s`. */
  lemma {:induction false} ContainsIff(s: string, sub: string)
    ensures Contains(s, sub) <==> exists k :: OccursAt(s, sub, k)
    decreases |s|
  {
    if |sub| <= |s| {
      if s[..|sub|] == sub {
        assert OccursAt(s, sub, 0);
      } else {
        ContainsIff(s[1..], sub);
        if exists k :: OccursAt(s[1..], sub, k) {
          var k :| OccursAt(s[1..], sub, k);
          assert s[1..][k..k + |sub|] == s[k + 1..k + 1 + |sub|];
          assert OccursAt(s, sub, k + 1);
        }
        assert s[0..|sub|] == s[..|sub|];
        assert !OccursAt(s, sub, 0);
        forall k | OccursAt(s, sub, k) && k > 0
          ensures OccursAt(s[1..], sub, k - 1)
        {
          assert s[1..][k - 1..k - 1 + |sub|] == s[k..k + |sub|];
        }
      }
    }
  }

  /** A string that lacks one of `sub`'s characters cannot contain `sub`. */
  lemma {:induction false} MissingCharExcludes(s: string, sub: string, c: char)
    requires c in sub && c !in s
    ensures !Contains(s, sub)
    decreases |s|
  {
    if |sub| <= |s| {
      var k :| 0 <= k < |sub| && sub[k] == c;
      assert s[k] in s;
      assert s[..|sub|][k] != sub[k];
      MissingCharExcludes(s[1..], sub, c);
    }
  }

  /** Lower-casing both sides keeps an occurrence where it was. */
  lemma {:induction false} LowerKeepsOccurrence(s: string, sub: string)
    requires Contains(s, sub)
    ensures Contains(LowerStr(s), LowerStr(sub))
    decreases |s|
  {
    var ls, lsub := LowerStr(s), LowerStr(sub);
    if s[..|sub|] == sub {
      assert ls[..|lsub|] == lsub;
    } else {
      LowerKeepsOccurrence(s[1..], sub);
      assert ls[1..] == LowerStr(s[1..]);
    }
  }

  /** Python's `s.endswith(suffix)`. */
  predicate EndsWith(s: string, suffix: string) {
    |suffix| <= |s| && s[|s| - |suffix|..] == suffix
  }

  // ---------------------------------------------------------------------------
  // strip()
  // ---------------------------------------------------------------------------

  predicate AllSpace(s: string) {
    forall k :: 0 <= k < |s| ==> IsSpace(s[k])
  }

  /** Neither end of `s` is white space. */
  predicate IsTrimmed(s: string) {
    |s| == 0 || (!IsSpace(s[0]) && !IsSpace(s[|s| - 1]))
  }

  /** The end of the white-space run of `s` that starts at `i` (greedy: the
      run stops at the first other character or at the end). */
  function SpaceEnd(s: string, i: nat): (j: nat)
    requires i <= |s|
    ensures i <= j <= |s|
    ensures forall k :: i <= k < j ==> IsSpace(s[k])
    ensures j == |s| || !IsSpace(s[j])
    decreases |s| - i
  {
    if i < |s| && IsSpace(s[i]) then SpaceEnd(s, i + 1) else i
  }

  /** The start of the white-space run of `s` that ends at `j`, going no
      further back than `lo`. */
  function SpaceStart(s: string, lo: nat, j: nat): (i: nat)
    requires lo <= j <= |s|
    ensures lo <= i <= j
    ensures forall k :: i <= k < j ==> IsSpace(s[k])
    ensures i == lo || !IsSpace(s[i - 1])
    decreases j
  {
    if lo < j && IsSpace(s[j - 1]) then SpaceStart(s, lo, j - 1) else j
  }

  /** A run that stops where `SpaceEnd` would stop is the one it finds. */
  lemma {:induction false} SpaceEndIs(s: string, i: nat, j: nat)
    requires i <= j <= |s|
    requires forall k :: i <= k < j ==> IsSpace(s[k])
    requires j == |s| || !IsSpace(s[j])
    ensures SpaceEnd(s, i) == j
    decreases j - i
  {
    if i < j {
      SpaceEndIs(s, i + 1, j);
    }
  }

  lemma {:induction false} SpaceStartIs(s: string, lo: nat, i: nat, j: nat)
    requires lo <= i <= j <= |s|
    requires forall k :: i <= k < j ==> IsSpace(s[k])
    requires i == lo || !IsSpace(s[i - 1])
    ensures SpaceStart(s, lo, j) == i
    decreases j - i
  {
    if i < j {
      SpaceStartIs(s, lo, i, j - 1);
    }
  }

  /** Python's `s.strip()`: the infix of `s` left once white space is removed
      from both ends (`StripFramed` says where it sits, `StripUnique` that it
      is the only such infix). */
  function Strip(s: string): (r: string)
    ensures IsTrimmed(r) && |r| <= |s|
    ensures r == [] <==> AllSpace(s)
  {
    var lo := SpaceEnd(s, 0);
    var hi := SpaceStart(s, lo, |s|);
    assert lo == |s| ==> AllSpace(s);
    s[lo..hi]
  }

  /** `s` is `r` at offset `i`, with nothing but white space around it. */
  predicate SpaceFramed(s: string, i: int, r: string) {
    0 <= i && i + |r| <= |s| && r == s[i..i + |r|] && AllSpace(s[..i]) && AllSpace(s[i + |r|..])
  }

  /** What `strip()` leaves sits in `s` with only white space around it. */
  lemma StripFramed(s: string)
    ensures exists i :: SpaceFramed(s, i, Strip(s))
  {
    var lo := SpaceEnd(s, 0);
    var hi := SpaceStart(s, lo, |s|);
    assert Strip(s) == s[lo..hi];
    assert SpaceFramed(s, lo, Strip(s));
  }

  /** `strip()` is determined by what it promises: whenever `s` is a trimmed
      string framed by white space, stripping `s` gives that string back. */
  lemma StripUnique(s: string, a: string, m: string, b: string)
    requires s == a + m + b && AllSpace(a) && AllSpace(b) && IsTrimmed(m)
    ensures Strip(s) == m
  {
    forall k | 0 <= k < |a|
      ensures IsSpace(s[k])
    {
      assert s[k] == a[k];
    }
    forall k | |a| + |m| <= k < |s|
      ensures IsSpace(s[k])
    {
      assert s[k] == b[k - |a| - |m|];
    }
    if |m| == 0 {
      SpaceEndIs(s, 0, |s|);
      assert s[|s|..|s|] == m;
    } else {
      assert s[|a|] == m[0] && s[|a| + |m| - 1] == m[|m| - 1];
      SpaceEndIs(s, 0, |a|);
      SpaceStartIs(s, |a|, |a| + |m|, |s|);
      assert s[|a|..|a| + |m|] == m;
    }
  }

  /** Stripping twice is stripping once. */
  lemma StripIdempotent(s: string)
    ensures Strip(Strip(s)) == Strip(s)
  {
    var m := Strip(s);
    assert m == "" + m + "";
    StripUnique(m, "", m, "");
  }

  // ---------------------------------------------------------------------------
  // sep.join(parts) and s.split(sep)
  // ---------------------------------------------------------------------------

  /** Where part `k` starts in `Join(parts, sep)`: after every earlier part and
      its separator. */
  function Offset(parts: seq<string>, k: nat): nat
    requires k <= |parts|
  {
    if k == 0 then 0 else |parts[0]| + 1 + Offset(parts[1..], k - 1)
  }

  /** Part `k` of `parts` sits in `r` at its offset. */
  predicate PartAt(parts: seq<string>, r: string, k: nat)
    requires k < |parts|
  {
    Offset(parts, k) + |parts[k]| <= |r| && r[Offset(parts, k)..Offset(parts, k) + |parts[k]|] == parts[k]
  }

  /** The character of `r` right after part `k` is `sep`. */
  predicate SeparatorAfter(parts: seq<string>, sep: char, r: string, k: nat)
    requires k < |parts|
  {
    Offset(parts, k) + |parts[k]| < |r| && r[Offset(parts, k) + |parts[k]|] == sep
  }

  /** Python's `sep.join(parts)` for a one-character separator: every part at
      its offset, a separator after every part but the last, and nothing
      more. */
  function Join(parts: seq<string>, sep: char): (r: string)
    ensures |parts| == 0 ==> r == []
    ensures |parts| > 0 ==> |r| + 1 == Offset(parts, |parts|)
    ensures forall k :: 0 <= k < |parts| ==> PartAt(parts, r, k)
    ensures forall k :: 0 <= k < |parts| - 1 ==> SeparatorAfter(parts, sep, r, k)
    decreases |parts|
  {
    if |parts| == 0 then []
    else if |parts| == 1 then
      assert PartAt(parts, parts[0], 0) by { assert parts[0][..|parts[0]|] == parts[0]; }
      parts[0]
    else
      var rest := Join(parts[1..], sep);
      JoinStep(parts, sep, rest);
      parts[0] + [sep] + rest
  }

  /** One step of `Join`: putting the first part and a separator in front of
      the join of the others lays every part out at its offset. */
  lemma JoinStep(parts: seq<string>, sep: char, rest: string)
    requires |parts| >= 2
    requires |rest| + 1 == Offset(parts[1..], |parts| - 1)
    requires forall k :: 0 <= k < |parts| - 1 ==> PartAt(parts[1..], rest, k)
    requires forall k :: 0 <= k < |parts| - 2 ==> SeparatorAfter(parts[1..], sep, rest, k)
    ensures var r := parts[0] + [sep] + rest;
      && |r| + 1 == Offset(parts, |parts|)
      && (forall k :: 0 <= k < |parts| ==> PartAt(parts, r, k))
      && (forall k :: 0 <= k < |parts| - 1 ==> SeparatorAfter(parts, sep, r, k))
  {
    var r := parts[0] + [sep] + rest;
    assert Offset(parts, |parts|) == |parts[0]| + 1 + Offset(parts[1..], |parts| - 1);
    forall k | 0 <= k < |parts|
      ensures PartAt(parts, r, k)
    {
      if k == 0 {
        assert r[..|parts[0]|] == parts[0];
      } else {
        JoinPartAt(parts, sep, rest, k);
      }
    }
    forall k | 0 <= k < |parts| - 1
      ensures SeparatorAfter(parts, sep, r, k)
    {
      if k > 0 {
        JoinSeparatorAt(parts, sep, rest, k);
      }
    }
  }

  lemma JoinPartAt(parts: seq<string>, sep: char, rest: string, k: nat)
    requires 1 <= k < |parts|
    requires PartAt(parts[1..], rest, k - 1)
    ensures PartAt(parts, parts[0] + [sep] + rest, k)
  {
    var r := parts[0] + [sep] + rest;
    var n := |parts[0]| + 1;
    var o := Offset(parts[1..], k - 1);
    var w := parts[k];
    assert parts[1..][k - 1] == w;
    assert Offset(parts, k) == n + o;
    assert o + |w| <= |rest|;
    assert r[n..] == rest;
    assert r[n + o..n + o + |w|] == r[n..][o..o + |w|];
  }

  lemma JoinSeparatorAt(parts: seq<string>, sep: char, rest: string, k: nat)
    requires 1 <= k < |parts| - 1
    requires SeparatorAfter(parts[1..], sep, rest, k - 1)
    ensures SeparatorAfter(parts, sep, parts[0] + [sep] + rest, k)
  {
    var r := parts[0] + [sep] + rest;
    var n := |parts[0]| + 1;
    var o := Offset(parts[1..], k - 1);
    assert parts[1..][k - 1] == parts[k];
    assert Offset(parts, k) == n + o;
    assert r[n + o + |parts[k]|] == rest[o + |parts[k]|];
  }

  /** Index of the first `c` in `s`, or `|s|` when there is none. */
  function FirstIndexOf(s: string, c: char): (i: nat)
    ensures i <= |s|
    ensures i < |s| ==> s[i] == c
    ensures c !in s[..i]
  {
    if |s| == 0 || s[0] == c then 0 else 1 + FirstIndexOf(s[1..], c)
  }

  /** Cuts `s` at every `sep`, as `s.split(sep)` would; the program never
      splits this way, but reading a joined text back needs it. Joining the
      parts back gives `s`, and no part holds the separator. */
  function SplitOn(s: string, sep: char): (parts: seq<string>)
    ensures |parts| >= 1
    ensures forall k :: 0 <= k < |parts| ==> sep !in parts[k]
    ensures Join(parts, sep) == s
    decreases |s|
  {
    var i := FirstIndexOf(s, sep);
    if i == |s| then
      assert s[..i] == s;
      [s]
    else
      var rest := SplitOn(s[i + 1..], sep);
      var parts := [s[..i]] + rest;
      assert parts[1..] == rest;
      assert Join(parts, sep) == s[..i] + [sep] + Join(rest, sep);
      assert s == s[..i] + [sep] + s[i + 1..];
      parts
  }

  /** The other round trip: splitting a join gives the parts back, provided no
      part holds the separator. */
  lemma {:induction false} SplitOnJoin(parts: seq<string>, sep: char)
    requires |parts| >= 1
    requires forall k :: 0 <= k < |parts| ==> sep !in parts[k]
    ensures SplitOn(Join(parts, sep), sep) == parts
    decreases |parts|
  {
    var s := Join(parts, sep);
    if |parts| == 1 {
      assert s[..|s|] == parts[0];
      FirstIndexOfIs(s, sep, |s|);
    } else {
      var p0 := parts[0];
      var rest := Join(parts[1..], sep);
      assert s == p0 + [sep] + rest;
      assert s[..|p0|] == p0;
      FirstIndexOfIs(s, sep, |p0|);
      assert s[|p0| + 1..] == rest;
      SplitOnJoin(parts[1..], sep);
    }
  }

  /** `FirstIndexOf` finds the first occurrence and nothing else. */
  lemma {:induction false} FirstIndexOfIs(s: string, c: char, i: nat)
    requires i <= |s| && c !in s[..i] && (i < |s| ==> s[i] == c)
    ensures FirstIndexOf(s, c) == i
    decreases i
  {
    if i > 0 {
      assert s[0] == s[..i][0];
      assert s[1..][..i - 1] == s[..i][1..];
      FirstIndexOfIs(s[1..], c, i - 1);
    }
  }

  // ---------------------------------------------------------------------------
  // Framed strings
  // ---------------------------------------------------------------------------

  /** The text between a known prefix and a known suffix, if `s` has both. */
  function Unwrap(s: string, prefix: string, suffix: string): (m: Option<string>)
    ensures m.Some? ==> s == prefix + m.value + suffix
    ensures m.None? ==> !(|prefix| + |suffix| <= |s| && s[..|prefix|] == prefix
                          && s[|s| - |suffix|..] == suffix)
  {
    if |prefix| + |suffix| <= |s| && s[..|prefix|] == prefix && s[|s| - |suffix|..] == suffix then
      Some(s[|prefix|..|s| - |suffix|])
    else
      None
  }

  /** The two halves of a concatenation are its prefix and its suffix. */
  lemma ConcatParts(a: string, b: string)
    ensures (a + b)[..|a|] == a && (a + b)[|a|..] == b
  {
  }

  /** Framing a text and unwrapping it gives the text back. */
  lemma UnwrapWrapped(prefix: string, m: string, suffix: string)
    ensures Unwrap(prefix + m + suffix, prefix, suffix) == Some(m)
  {
    var s := prefix + m + suffix;
    assert s[..|prefix|] == prefix;
    assert s[|s| - |suffix|..] == suffix;
    assert s[|prefix|..|s| - |suffix|] == m;
  }

  // ---------------------------------------------------------------------------
  // Decimal integers, as an f-string renders them
  // ---------------------------------------------------------------------------

  function DigitChar(d: nat): (c: char)
    requires d < 10
    ensures IsDigit(c) && c as int - 0x30 == d
  {
    (0x30 + d) as char
  }

  /** The number a string of decimal digits denotes. */
  function DigitsValue(s: string): nat
    requires forall k :: 0 <= k < |s| ==> IsDigit(s[k])
  {
    if |s| == 0 then 0
    else
      assert IsDigit(s[|s| - 1]);
      10 * DigitsValue(s[..|s| - 1]) + (s[|s| - 1] as int - 0x30)
  }

  /** `str(n)`: the canonical decimal digits of `n`, which read back as `n`. */
  function NatToString(n: nat): (s: string)
    ensures |s| >= 1
    ensures forall k :: 0 <= k < |s| ==> IsDigit(s[k])
    ensures n > 0 ==> s[0] != '0'
    ensures DigitsValue(s) == n
    decreases n
  {
    if n < 10 then
      [DigitChar(n)]
    else
      var front := NatToString(n / 10);
      var s := front + [DigitChar(n % 10)];
      assert s[..|s| - 1] == front;
      s
  }
}

=== FILE: widgets.dfy ===
/** The one user-interface element whose behaviour the analysers rely on. */
module Widgets {
  import opened Wrappers

  /** What a `st.selectbox` over `choices` can hand back: nothing for an
      empty list, otherwise one of the offered values. */
  predicate Offered<T(==)>(choices: seq<T>, selected: Option<T>) {
    (selected.None? <==> |choices| == 0) && (selected.Some? ==> selected.value in choices)
  }
}

=== FILE: wrappers.dfy ===
/** Failure-carrying datatypes shared by every module of the model. */
module Wrappers {

  /** A value that may be absent: a missing folder, an unmatched file name, a header row that was not found. */
  datatype Option<+T> = None | Some(value: T)

  /** The outcome of a step that can fail with a message. */
  datatype Result<+T, +E> = Ok(value: T) | Err(error: E)
}
